=== FILE: README.md ===
# Hotel reservation platform: serving, history, forecast, asset export and cleaning

A Dafny model of the core of a hotel-reservation cancellation service. The service has
four parts:

- **Cleaning** (`clean_data.py`). The reservation table is cleaned: each booking's arrival
  date is built from its year, month and day fields. Bookings whose date pandas cannot
  convert are dropped. A 0/1 cancellation target is added.
- **Asset export** (`backend/scripts/export_preprocessor.py`). The identifier and target
  columns are dropped. A label encoder is fitted on each string column, and a standard
  scaler is fitted on the encoded matrix. The schema, the encoders and the scaler are
  saved for serving.
- **Feature pipeline** (`backend/utils.py`). A request record is aligned to the saved
  schema, with missing fields set to 0. Its labels are encoded, with unknown labels sent
  to the first class. The row is scaled and then scored by the classifier.
- **API** (`backend/main.py`):
  - `/predict` thresholds the probability at 0.5 and appends the request to the
    prediction ledger;
  - `/history` reads the ledger back, newest first;
  - `/batch-predict` validates an upload, then scores its rows;
  - `/forecast` resamples arrivals into Sunday-ending weeks and shapes the fitted
    model's twelve-week forecast.

Modules:

| module | file | what it holds |
|---|---|---|
| `Results` | results.dfy | `Option`, and `Result` usable with `:-`, for exceptions |
| `Calendar` | calendar.dfy | Gregorian dates and the range a pandas Timestamp can represent |
| `Records` | records.dfy | scalar cells, records (request bodies, CSV rows), tables |
| `Text` | text.dfy | code-point order of strings, suffix test |
| `Filtering` | filtering.dfy | order-preserving selection (boolean masks, `drop`, `dropna`) |
| `LabelEncoding` | label_encoding.dfy | `LabelEncoder`: sorted distinct classes, label to code |
| `Features` | features.dfy | `HotelModelWrapper.preprocess` / `predict` |
| `Inference` | inference.dfy | the 0.5 decision rule and its labels |
| `Ledger` | ledger.dfy | the `predictions` table: autoincrement append, newest-first read |
| `Serving` | serving.dfy | `/predict` and `/batch-predict` |
| `Forecasting` | forecasting.dfy | weekly resampling and the `/forecast` response |
| `Export` | export.dfy | the asset export, and its agreement with the serving pipeline |
| `Cleaning` | clean_data.dfy | the cleaning script |

The classifier, the seasonal model's fit and the standard-deviation computation are
parameters: `Classifier`, `Fitter` and `Spread`. The clock reading and the outcome of the
database write are parameters of `PredictCancellation`. Forecast arrivals are day numbers
counted from 1970-01-01, so weeks end on day 3 + 7w, a Sunday.

The central property is training/serving consistency. `Export.ServingReplaysTraining`
proves the following. Take any row of the exported data, and serve it through
`Features.Preprocess` with the exported assets. The result is exactly the scaler applied
to that row of the label-encoded training matrix.

## Model

| member | source | states |
|---|---|---|
| `Calendar.DaysInMonth` | clean_data.py:8-11 | the Gregorian month lengths: February has 29 days in leap years and 28 otherwise, April, June, September and November have 30, and the other seven months have 31 |
| `Calendar.YearLength` | clean_data.py:8-11 | the twelve month lengths add up to 366 in a leap year and 365 otherwise |
| `Calendar.Converts` | clean_data.py:8-11 | a converting date is a real calendar date within 1677..2262, and every calendar date from 1678 through 2261 converts |
| `Calendar.TimestampRangeEdges` | clean_data.py:8-11 | 1677-09-22 and 2262-04-11 convert, while 1677-09-21 and 2262-04-12 become NaT |
| `Calendar.LeapDayConverts` | clean_data.py:8-11 | inside the Timestamp range, February 29 converts exactly in leap years |
| `Calendar.LeapDayExamples` | clean_data.py:8-11 | 2018-02-29 and 1900-02-29 become NaT; 2016-02-29 and 2000-02-29 convert |
| `Records.Get` | backend/main.py:204 | `row.get(key, default)`: the stored cell when the key is present, otherwise the default |
| `Text.EndsWith` | backend/main.py:188 | `filename.endswith('.csv')`: the last characters of the name are exactly the suffix |
| `Text.EndsWithIsAppended` | backend/main.py:188 | a name ends with the suffix exactly when it is some prefix followed by the suffix |
| `Text.EndsWithExamples` | backend/main.py:188 | "bookings.csv" and ".csv" pass; "bookings.CSV" and "csv" are rejected |
| `Text.LessIrreflexive` | backend/scripts/export_preprocessor.py:19-20 | no string sorts before itself in the order `LabelEncoder` sorts classes in |
| `Text.LessTransitive` | backend/scripts/export_preprocessor.py:19-20 | that order is transitive |
| `Text.LessTotal` | backend/scripts/export_preprocessor.py:19-20 | any two distinct strings are ordered one way or the other |
| `Filtering.Positions` | clean_data.py:14-18 | the selected positions are in range, pass the test and increase strictly, and every passing position is selected |
| `Filtering.Filter` | backend/scripts/export_preprocessor.py:11 | the selection keeps the passing elements in their original order, and only those |
| `Filtering.PartitionSizes` | clean_data.py:14-18 | a test and its negation select disjoint sets of positions that together cover all of them |
| `Filtering.AllPositions` | clean_data.py:18 | when every element passes, every position is selected, in order |
| `LabelEncoding.SortedIsDistinct` | backend/scripts/export_preprocessor.py:19-20 | strictly sorted classes hold no label twice |
| `LabelEncoding.Insert` | backend/scripts/export_preprocessor.py:19-20 | inserting a label keeps the classes strictly sorted and adds exactly that label |
| `LabelEncoding.Fit` | backend/scripts/export_preprocessor.py:19-20 | the fitted classes are strictly sorted and are exactly the distinct labels of the column |
| `LabelEncoding.IndexOf` | backend/utils.py:41 | the code of a known label is a position holding that label, and its first such position |
| `LabelEncoding.IndexOfPosition` | backend/utils.py:41 | in duplicate-free classes, each position is the code of the label it holds |
| `LabelEncoding.Transform` | backend/scripts/export_preprocessor.py:20 | one code per label, each a valid class position that decodes back to its label |
| `LabelEncoding.FitTransformRoundTrip` | backend/scripts/export_preprocessor.py:20 | `fit_transform` then decoding gives back the column, and every code is below the number of classes |
| `Features.Fill` | backend/utils.py:29-32 | every schema column is present afterwards; supplied fields are unchanged; no other field is added |
| `Features.Align` | backend/utils.py:29-35 | one cell per schema column, in schema order: the supplied value, or 0 when the field is missing |
| `Features.EncodeCell` | backend/utils.py:38-41 | with classes, the code is valid; a known label gets its own class and anything else gets class 0; without classes, encoding fails |
| `Features.EncodeRow` | backend/utils.py:37-41 | succeeds exactly when every encoder names a schema column and has classes; encoded columns get valid codes with the known and fallback rule, and other columns pass through |
| `Features.EncodedKnownCell` | backend/utils.py:40-41 | a label its encoder knows is encoded as that label's class position |
| `Features.ToReals` | backend/utils.py:44 | the float conversion succeeds exactly when every cell is a number, and keeps each cell's value |
| `Features.Scale` | backend/utils.py:43-44 | scaling succeeds exactly when the scaler has one column per value, and exact-real `inverse_transform` recovers every input column |
| `Features.ScaleIsColumnwise` | backend/utils.py:44 | scaled column i depends on input column i alone |
| `Features.ScaleInjective` | backend/utils.py:44 | in exact-real scaling, two input rows with the same scaled row are equal |
| `Features.Preprocess` | backend/utils.py:26-45 | a preprocessed row has one value per schema column |
| `Features.Predict` | backend/utils.py:47-50 | prediction succeeds exactly when preprocessing does, and the probability is the classifier applied to the preprocessed row |
| `Features.PreprocessSucceedsIff` | backend/utils.py:26-45 | preprocessing fails exactly when the assets are inconsistent or a supplied numeric field holds a non-number; missing fields never make it fail |
| `Features.AlignedLength` | backend/utils.py:26-45 | any record, however many fields it has, preprocesses to the schema's width |
| `Features.PreprocessReadsOnlySchema` | backend/utils.py:26-45 | two records that agree on the schema fields preprocess identically |
| `Features.PredictReadsOnlySchema` | backend/utils.py:47-50 | two records that agree on the schema fields get the same prediction |
| `Features.ExtraFieldsIgnored` | backend/utils.py:27-35 | adding fields outside the schema does not change the prediction |
| `Features.PreprocessedColumn` | backend/utils.py:29-44 | unscaled, a categorical column holds its label's code, or 0 for an unknown or missing label; a numeric column holds the supplied number, or 0 when missing |
| `Inference.Label` | backend/main.py:80 | the verdict is reported as "Canceled" or "Not_Canceled" |
| `Inference.VerdictOf` | backend/main.py:80 | "Canceled" exactly when the probability is strictly above 0.5, "Not_Canceled" exactly when it is at most 0.5 |
| `Inference.VerdictMonotone` | backend/main.py:80 | a higher probability never turns a cancellation into a non-cancellation |
| `Inference.ThresholdBoundary` | backend/main.py:80 | exactly 0.5 is not a cancellation; just above it is |
| `Ledger.NextId` | backend/main.py:36 | AUTOINCREMENT hands out a positive id larger than every id stored so far |
| `Ledger.Append` | backend/main.py:83-95 | the insert keeps ids valid, leaves earlier rows untouched, stores the given fields, and assigns a larger id |
| `Ledger.Newest` | backend/main.py:167-171 | selects min(limit, size) stored events |
| `Ledger.NewestAreLargestIds` | backend/main.py:167-171 | the selection is in strictly descending id order, holds the most recent events, and every event left out is older than every event selected |
| `Ledger.History` | backend/main.py:161-180 | `count` equals the number of items, which is min(limit, size); item k is the k-th newest event, with its verdict as a label |
| `Ledger.DefaultHistory` | backend/main.py:162-180 | with the default limit of 50, the response holds min(50, size) items, the newest first |
| `Ledger.HistoryExample` | backend/main.py:161-180 | after A, B and C are stored, a limit of 2 returns C then B |
| `Serving.PredictCancellation` | backend/main.py:73-100 | succeeds exactly when prediction and storage both succeed; on failure the ledger is unchanged; on success exactly one event is appended, holding the request, the clock reading, the probability and a verdict that is Canceled iff the probability is above 0.5; the risk score is the probability times 100 |
| `Serving.ScoreRows` | backend/main.py:201-207 | succeeds exactly when every row predicts; item i carries row i's booking id, probability and verdict |
| `Serving.BatchPredict` | backend/main.py:186-211 | a non-CSV name is rejected whatever the content; a CSV missing a required column is rejected before any row is scored; the upload succeeds exactly when it is a CSV with both required columns and every row predicts; then `count` equals the number of results, which is the number of rows, and each result matches its row |
| `Serving.MissingColumnRejectsBeforeRows` | backend/main.py:196-199 | with a required column missing, the answer does not depend on the rows |
| `Serving.BatchAgreesWithSingle` | backend/main.py:201-207 | batch row i gets the probability and verdict `/predict` gives that row alone |
| `Serving.BatchStatusAsWritten` | backend/main.py:186-211 | as written, only a wrong file type is answered 400 and every other failure 500 |
| `Serving.BatchStatus` | backend/main.py:186-211 | as intended, the wrong file type and missing columns are answered 400 and a failing row 500 |
| `Serving.MissingColumnsAnswered500` | backend/main.py:191-211 | a CSV lacking a required column is answered 500 as written, but 400 as intended |
| `Forecasting.WeekOf` | backend/main.py:119 | a day belongs to the week whose Sunday is the first Sunday on or after it |
| `Forecasting.CountIn` | backend/main.py:119 | a week never counts more arrivals than there are |
| `Forecasting.FirstWeek` | backend/main.py:119 | the earliest arrival week: no arrival is earlier and some arrival is in it |
| `Forecasting.LastWeek` | backend/main.py:119 | the latest arrival week: no arrival is later and some arrival is in it |
| `Forecasting.WeeksOrdered` | backend/main.py:119 | the first arrival week is no later than the last |
| `Forecasting.Weekly` | backend/main.py:119 | one count per week from the first arrival's week to the last, empty weeks included |
| `Forecasting.CountInIsFilter` | backend/main.py:119 | a week's count is the number of arrivals that the mask "falls in this week" selects |
| `Forecasting.CountInPositive` | backend/main.py:119 | every arrival counts towards its own week |
| `Forecasting.WeeklySpan` | backend/main.py:119 | every arrival's week is inside the series, and the series starts and ends with a week that has arrivals |
| `Forecasting.WeeklyTotal` | backend/main.py:119 | the weekly counts sum to the number of arrivals, so every arrival is counted exactly once |
| `Forecasting.Trunc` | backend/main.py:141 | `int()` truncates toward zero |
| `Forecasting.ObservedTail` | backend/main.py:135-137 | the last min(20, n) weeks in time order, each labelled with its own Sunday; the final entry is the latest week |
| `Forecasting.ForecastWeeks` | backend/main.py:139-149 | twelve forecast points and twelve intervals on the same Sundays, one week apart after the last observed week; points are truncated means, intervals keep both bounds |
| `Forecasting.Forecast` | backend/main.py:102-156 | fails exactly when there are no arrivals or the fit fails; otherwise `current_trend` is the latest weekly count, equal to the last observed point, and the forecast continues from the last observed week |
| `Export.Names` | backend/scripts/export_preprocessor.py:35 | the saved schema lists the column names in frame order |
| `Export.Reduced` | backend/scripts/export_preprocessor.py:11 | the feature columns are exactly the frame's columns outside the four excluded names; absent excluded names are ignored |
| `Export.ReducedKeepsOrder` | backend/scripts/export_preprocessor.py:11 | the feature columns keep their relative order from the data |
| `Export.ReducedDistinct` | backend/scripts/export_preprocessor.py:11 | feature column names are unique |
| `Export.ReducedHeights` | backend/scripts/export_preprocessor.py:11 | every feature column has one cell per row |
| `Export.EncodeColumn` | backend/scripts/export_preprocessor.py:18-21 | a string column becomes the codes of its own fitted classes, cell by cell; a numeric column is unchanged |
| `Export.Encoders` | backend/scripts/export_preprocessor.py:17-21 | one encoder per string feature column, fitted on that column alone, and none for any other column |
| `Export.Mean` | backend/scripts/export_preprocessor.py:24-25 | a column's fitted mean is the value whose n copies sum to the column |
| `Export.MeanWithin` | backend/scripts/export_preprocessor.py:24-25 | a column's mean lies between any lower and upper bound of its values |
| `Export.FitScaler` | backend/scripts/export_preprocessor.py:24-25 | one mean and one scale per encoded column, in column order, each computed from that column |
| `Export.ExportAssets` | backend/scripts/export_preprocessor.py:8-35 | export fails exactly when there are no rows or no feature columns |
| `Export.ExportedAssetsWellFormed` | backend/scripts/export_preprocessor.py:17-35 | the saved assets are what serving needs: every encoder names a schema column and has classes, and the scaler has one column per schema column |
| `Export.ExportedEncoders` | backend/scripts/export_preprocessor.py:17-21 | the encoder keys are exactly the string feature columns; each encoder's classes are its column's distinct labels, sorted |
| `Export.EncodedCellsAreValidCodes` | backend/scripts/export_preprocessor.py:18-21 | every encoded cell is a valid class code that decodes to the cell's label |
| `Export.RowRecord` | backend/scripts/export_preprocessor.py:8 | a data row as a record holds each column's cell under that column's name |
| `Export.FeatureColumnCell` | backend/scripts/export_preprocessor.py:11 | each feature column has a cell in every row, and the row's record holds it |
| `Export.ServedCellMatches` | backend/utils.py:37-44 | serving a training cell yields the code the training encoding gave it |
| `Export.ServedLabelCell` | backend/utils.py:38-41 | a label cell is served as its training code |
| `Export.ServedNumberCell` | backend/utils.py:30-35 | a number cell is served unchanged |
| `Export.ServedRowMatches` | backend/utils.py:37-44 | encoding and float conversion of a training row give that row of the encoded columns |
| `Export.ServingMatchesEncoding` | backend/utils.py:26-45 | preprocessing a record that carries training row k gives the scaler applied to encoded row k |
| `Export.ServingReplaysTraining` | backend/scripts/export_preprocessor.py:11-35 | serving any row of the exported data with the exported assets succeeds and reproduces that row of `scaler.fit_transform(X)` |
| `Export.TrainingRowIsEncodedRow` | backend/scripts/export_preprocessor.py:20-25 | the rows of the encoded training matrix are the rows of the encoded columns |
| `Export.RowRecordCarriesRow` | backend/scripts/export_preprocessor.py:11 | a data row's record carries that row of every feature column |
| `Cleaning.FirstMissing` | clean_data.py:9-22 | reports a required column the header lacks, the earliest in reading order, and none when all are present |
| `Cleaning.ArrivalDate` | clean_data.py:8-11 | a date exists exactly when year, month and day are all integers, and it is built from those three fields |
| `Cleaning.StatusCode` | clean_data.py:22 | the target is 1 exactly for a "Canceled" status and 0 otherwise, including a missing status |
| `Cleaning.Tag` | clean_data.py:8-22 | a kept row gains exactly the two new fields, a convertible date and the target, and every other field is unchanged |
| `Cleaning.AddColumn` | clean_data.py:8 | assigning a column keeps an existing column in place and appends a new one at the end |
| `Cleaning.Clean` | clean_data.py:8-22 | fails exactly when a required column is missing; otherwise it keeps exactly the rows whose date converts, in order, tags each one, and reports the number of rows that failed |
| `Cleaning.CleanAccountsForEveryRow` | clean_data.py:14-18 | kept rows plus failed rows equal the input rows |
| `Cleaning.CleanedRowsAreUsable` | clean_data.py:18-22 | every cleaned row has a convertible arrival date and a 0/1 target, and the header names both added columns |
| `Cleaning.TagIdempotent` | clean_data.py:8-22 | tagging a tagged row changes nothing |
| `Cleaning.CleanedHeaderStable` | clean_data.py:8-22 | the cleaned header still has the required columns, and cleaning adds nothing to it a second time |
| `Cleaning.TagAllFixed` | clean_data.py:14-22 | already-clean rows are all kept, none fail, and they stay as they are |
| `Cleaning.CleanIdempotent` | clean_data.py:8-25 | cleaning the cleaned file gives the same file back, with no failed rows |

## Left out

- The Keras classifier is a parameter (`Classifier`), a total function from the scaled row to a probability. Model loading and the `.keras`/`.h5` fallback are I/O.
- The SARIMAX fit is a parameter (`Fitter`) that gives, or fails to give, a band for each step ahead. Its order (1,1,1)×(1,1,1,52) and its numerics are not modelled.
- The standard deviation `StandardScaler` stores is a parameter (`Spread`). It is nonzero because sklearn replaces a zero deviation by 1. The mean is computed in exact reals, not floats.
- Features.Scale: the scaler holds no column names. scikit-learn 1.2 and later make `transform` fail when the frame's column names or their order differ from those seen in `fit`. That check is dropped. Exported assets never trigger it, because the schema and the scaler's columns both come from `list(X.columns)`.
- Features.Scale: `transform` is modelled in exact reals. In float64, `(x - mean) / scale` rounds, so `inverse_transform` recovers an input only up to rounding.
- Features.ScaleInjective: holds for exact-real scaling only. In float64, two nearby inputs can scale to the same double, for example 1.0 and 1.0 + 2^-52 with mean 1e6 and scale 1.
- Serving.PredictCancellation: `risk_score` is `prob * 100` unrounded; `round(..., 2)` on floats is not modelled.
- Features.Preprocess: a string in a numeric feature column is a failure; numpy's parsing of numeric strings such as "3.5" is not modelled.
- Features.Preprocess: NaN cells from pandas are not modelled; a missing field is absent from the record.
- Export.ExportAssets: `select_dtypes(include=['object'])` is modelled by the column's kind. Mixed or NaN-holding object columns, on which `LabelEncoder` would fail or sort differently, are not modelled.
- Cleaning.ArrivalDate: only integer cells build a date. When one missing value turns a whole column into floats, pandas makes every row's text unparseable; that column-wide effect is not modelled.
- Forecasting.Forecast: arrivals are day numbers. Parsing the `arrival_datetime` text, and choosing among the candidate CSV paths, are I/O.
- Forecasting.Forecast: the response's `lower <= mean <= upper` ordering is not claimed, because it depends on the fitted model.
- Ledger.History: `limit` is a natural number. SQLite's treatment of a negative `LIMIT` as "no limit" is not modelled.
- The JSON encoding of stored payloads is not modelled: `json.dumps`/`json.loads` round-trip the validated request body, which is kept as a record.
- HTTP status codes are modelled only for `/batch-predict` (see Findings). Every other failure is an `Err`.
- CSV and joblib reading and writing, the printed messages, CORS, database creation and connection handling are I/O.
- Concurrency between requests is not modelled; each request sees the ledger as the previous one left it.
- The frontend and `backend/scripts/test_prediction.py` are not part of this model.

## Findings

| source | as written | input that shows it | evidently intended | confidence | as-written member | corrected member |
|---|---|---|---|---|---|---|
| backend/main.py:191-211 | the missing-column `HTTPException(status_code=400)` is raised inside `try`; the `except Exception` clause catches it and re-raises it as a 500 | a file `bookings.csv` without `lead_time` | answer 400, as the raised exception says | high; not executed | `Serving.BatchStatusAsWritten`, `Serving.MissingColumnsAnswered500` | `Serving.BatchStatus` |

=== FILE: calendar.dfy ===
/** Gregorian calendar dates and the range of dates a pandas Timestamp can hold. */
module Calendar {

  /** A date as the three integers the reservation table stores. */
  datatype Date = Date(year: int, month: int, day: int)

  predicate IsLeapYear(y: int) {
    y % 4 == 0 && (y % 100 != 0 || y % 400 == 0)
  }

  /** Number of days in month `m` of year `y`. */
  function DaysInMonth(y: int, m: int): (n: int)
    requires 1 <= m <= 12
    ensures 28 <= n <= 31
    ensures m == 2 ==> (n == 29 <==> IsLeapYear(y))
    ensures m != 2 ==> (n == 30 <==> m in {4, 6, 9, 11})
    ensures m == 2 && !IsLeapYear(y) ==> n == 28
    ensures m in {1, 3, 5, 7, 8, 10, 12} ==> n == 31
  {
    if m == 2 then (if IsLeapYear(y) then 29 else 28)
    else if m in {4, 6, 9, 11} then 30
    else 31
  }

  /** The month exists and the day exists in that month. */
  predicate IsCalendarDate(d: Date) {
    1 <= d.month <= 12 && 1 <= d.day <= DaysInMonth(d.year, d.month)
  }

  /** Chronological order on dates, `a` no later than `b`. */
  predicate NotAfter(a: Date, b: Date) {
    a.year < b.year
    || (a.year == b.year && a.month < b.month)
    || (a.year == b.year && a.month == b.month && a.day <= b.day)
  }

  /** First and last midnight a nanosecond-resolution pandas Timestamp can represent. */
  const EarliestTimestampDate: Date := Date(1677, 9, 22)
  const LatestTimestampDate: Date := Date(2262, 4, 11)

  /** The dates that `pd.to_datetime(..., errors='coerce')` turns into a Timestamp rather than NaT. */
  predicate Converts(d: Date)
    ensures Converts(d) ==> IsCalendarDate(d) && 1677 <= d.year <= 2262
    ensures IsCalendarDate(d) && 1678 <= d.year <= 2261 ==> Converts(d)
  {
    IsCalendarDate(d) && NotAfter(EarliestTimestampDate, d) && NotAfter(d, LatestTimestampDate)
  }

  /** Inside the Timestamp range, February 29 converts exactly in leap years. */
  lemma LeapDayConverts(y: int)
    requires 1678 <= y <= 2261
    ensures Converts(Date(y, 2, 29)) <==> IsLeapYear(y)
  {
  }

  /** Example: 2018 is not a leap year, so 2018-02-29 does not convert; 2016-02-29 does. */
  lemma LeapDayExamples()
    ensures !Converts(Date(2018, 2, 29))
    ensures Converts(Date(2016, 2, 29))
    ensures !Converts(Date(1900, 2, 29)) && Converts(Date(2000, 2, 29))
  {
  }

  /** The twelve months of a year add up to 365 days, or 366 in a leap year. */
  lemma YearLength(y: int)
    ensures DaysInMonth(y, 1) + DaysInMonth(y, 2) + DaysInMonth(y, 3) + DaysInMonth(y, 4)
      + DaysInMonth(y, 5) + DaysInMonth(y, 6) + DaysInMonth(y, 7) + DaysInMonth(y, 8)
      + DaysInMonth(y, 9) + DaysInMonth(y, 10) + DaysInMonth(y, 11) + DaysInMonth(y, 12)
      == if IsLeapYear(y) then 366 else 365
  {
  }

  /** The first and last day of the Timestamp range convert; the days just outside do not. */
  lemma TimestampRangeEdges()
    ensures Converts(EarliestTimestampDate) && !Converts(Date(1677, 9, 21))
    ensures Converts(LatestTimestampDate) && !Converts(Date(2262, 4, 12))
  {
  }
}

=== FILE: clean_data.dfy ===
/** The dataset cleaning script: build each booking's arrival date from its year, month and
    day fields, drop the bookings whose date does not convert, and add a 0/1 cancellation
    target column. */
module Cleaning {
  import opened Results
  import opened Calendar
  import opened Records
  import opened Filtering

  /** The column the script adds with the parsed arrival date. */
  const DateColumn: string := "arrival_datetime"

  /** The column the script adds with the numeric target. */
  const TargetColumn: string := "booking_status_numeric"

  /** The status text that counts as a cancellation. */
  const CanceledStatus: string := "Canceled"

  /** The columns the script reads, in the order it reads them. */
  const RequiredColumns: seq<string> := ["arrival_year", "arrival_month", "arrival_date", "booking_status"]

  /** Reading a column the file does not have (pandas `KeyError`). */
  datatype CleanError = MissingColumn(name: string)

  /** The cleaned table, the positions of the input rows it kept, and the number of rows
      that failed date conversion. */
  datatype Cleaned = Cleaned(table: Table, kept: seq<nat>, failed: nat)

  /** The first column of `required` that `header` lacks, if any. */
  function FirstMissing(header: seq<string>, required: seq<string>): (m: Option<string>)
    ensures m.None? <==> forall i :: 0 <= i < |required| ==> required[i] in header
    ensures m.Some? ==> m.value !in header
    ensures m.Some? ==>
      exists i :: (0 <= i < |required| && required[i] == m.value && forall j :: 0 <= j < i ==> required[j] in header)
  {
    if required == [] then None
    else if required[0] !in header then Some(required[0])
    else
      var rest := FirstMissing(header, required[1..]);
      if rest.Some? then
        var i :| 0 <= i < |required[1..]| && required[1..][i] == rest.value
          && (forall j :: 0 <= j < i ==> required[1..][j] in header);
        assert required[i + 1] == rest.value;
        rest
      else rest
  }

  /** The year, month and day of a row, when all three are integers. A missing or
      non-integer cell makes the concatenated text unparseable. */
  function ArrivalDate(r: Record): (d: Option<Date>)
    ensures d.Some? <==>
      && "arrival_year" in r && r["arrival_year"].IntVal?
      && "arrival_month" in r && r["arrival_month"].IntVal?
      && "arrival_date" in r && r["arrival_date"].IntVal?
    ensures d.Some? ==> d.value == Date(r["arrival_year"].n, r["arrival_month"].n, r["arrival_date"].n)
  {
    if "arrival_year" in r && "arrival_month" in r && "arrival_date" in r
      && r["arrival_year"].IntVal? && r["arrival_month"].IntVal? && r["arrival_date"].IntVal?
    then Some(Date(r["arrival_year"].n, r["arrival_month"].n, r["arrival_date"].n))
    else None
  }

  /** `pd.to_datetime(..., errors='coerce')` yields a Timestamp for this row, not NaT. */
  predicate DateConverts(r: Record) {
    var d := ArrivalDate(r);
    d.Some? && Converts(d.value)
  }

  /** The row lands in `failed_rows`. */
  predicate DateFails(r: Record) {
    !DateConverts(r)
  }

  /** The numeric target: 1 exactly for a "Canceled" status; any other status, and a missing
      one, gives 0. */
  function StatusCode(r: Record): (c: int)
    ensures c == 0 || c == 1
    ensures c == 1 <==> "booking_status" in r && r["booking_status"] == StrVal(CanceledStatus)
  {
    if "booking_status" in r && r["booking_status"] == StrVal(CanceledStatus) then 1 else 0
  }

  /** A kept row with its two added cells. */
  function Tag(r: Record): (t: Record)
    requires DateConverts(r)
    ensures t.Keys == r.Keys + {DateColumn, TargetColumn}
    ensures t[DateColumn].DateVal? && Converts(t[DateColumn].date)
    ensures t[DateColumn] == DateVal(Date(r["arrival_year"].n, r["arrival_month"].n, r["arrival_date"].n))
    ensures t[TargetColumn] == IntVal(StatusCode(r))
    ensures forall c :: c in r && c != DateColumn && c != TargetColumn ==> t[c] == r[c]
  {
    r[DateColumn := DateVal(ArrivalDate(r).value)][TargetColumn := IntVal(StatusCode(r))]
  }

  /** Assigning a column: an existing column keeps its place, a new one goes last. */
  function AddColumn(header: seq<string>, name: string): (h: seq<string>)
    ensures name in h
    ensures |header| <= |h| <= |header| + 1 && h[..|header|] == header
    ensures forall c :: c in h ==> c in header || c == name
    ensures name in header ==> h == header
  {
    if name in header then header else header + [name]
  }

  /** The header of the cleaned file. */
  function CleanedHeader(header: seq<string>): seq<string> {
    AddColumn(AddColumn(header, DateColumn), TargetColumn)
  }

  /** The rows at positions `kept`, each with its two added cells. */
  function TagAll(rows: seq<Record>, kept: seq<nat>): (out: seq<Record>)
    requires forall k :: 0 <= k < |kept| ==> kept[k] < |rows| && DateConverts(rows[kept[k]])
    ensures |out| == |kept|
    ensures forall k :: 0 <= k < |kept| ==> out[k] == Tag(rows[kept[k]])
  {
    seq(|kept|, k requires 0 <= k < |kept| => Tag(rows[kept[k]]))
  }

  /** The whole script on a table read from the CSV file. */
  function Clean(t: Table): (c: Result<Cleaned, CleanError>)
    ensures c.Ok? <==> forall i :: 0 <= i < |RequiredColumns| ==> RequiredColumns[i] in t.header
    ensures c.Err? ==> c.error.name in RequiredColumns && c.error.name !in t.header
    ensures c.Ok? ==> var kept := c.value.kept;
      && |c.value.table.rows| == |kept|
      && (forall k, l :: 0 <= k < l < |kept| ==> kept[k] < kept[l])
      && (forall i :: 0 <= i < |t.rows| ==> (i in kept <==> DateConverts(t.rows[i])))
      && (forall k :: 0 <= k < |kept| ==>
            kept[k] < |t.rows| && DateConverts(t.rows[kept[k]]) && c.value.table.rows[k] == Tag(t.rows[kept[k]]))
    ensures c.Ok? ==> c.value.table.header == CleanedHeader(t.header)
    ensures c.Ok? ==> c.value.failed == |Positions(t.rows, DateFails, 0)|
  {
    var missing := FirstMissing(t.header, RequiredColumns);
    if missing.Some? then Err(MissingColumn(missing.value))
    else
      var kept := Positions(t.rows, DateConverts, 0);
      Ok(Cleaned(Table(CleanedHeader(t.header), TagAll(t.rows, kept)), kept, |Positions(t.rows, DateFails, 0)|))
  }

  /** Every input row is either kept or counted as failed, never both. */
  lemma CleanAccountsForEveryRow(t: Table)
    requires Clean(t).Ok?
    ensures |Clean(t).value.table.rows| + Clean(t).value.failed == |t.rows|
  {
    PartitionSizes(t.rows, DateConverts, DateFails, 0);
  }

  /** A row the model can train on: a convertible arrival date and a 0/1 target. */
  predicate Usable(r: Record) {
    && DateColumn in r && r[DateColumn].DateVal? && Converts(r[DateColumn].date)
    && TargetColumn in r && (r[TargetColumn] == IntVal(0) || r[TargetColumn] == IntVal(1))
  }

  /** Every cleaned row is usable, and the cleaned header names both added columns. */
  lemma CleanedRowsAreUsable(t: Table)
    requires Clean(t).Ok?
    ensures DateColumn in Clean(t).value.table.header && TargetColumn in Clean(t).value.table.header
    ensures forall k :: 0 <= k < |Clean(t).value.table.rows| ==> Usable(Clean(t).value.table.rows[k])
  {
    var c := Clean(t).value;
    forall k | 0 <= k < |c.table.rows|
      ensures Usable(c.table.rows[k])
    {
      var r := t.rows[c.kept[k]];
      assert c.table.rows[k] == Tag(r);
    }
  }

  /** Tagging leaves the date fields and the status alone, so tagging twice changes nothing. */
  lemma TagIdempotent(r: Record)
    requires DateConverts(r)
    ensures DateConverts(Tag(r)) && Tag(Tag(r)) == Tag(r)
  {
    var t := Tag(r);
    assert ArrivalDate(t) == ArrivalDate(r);
    assert StatusCode(t) == StatusCode(r);
  }

  /** Re-cleaning a cleaned header finds the columns it needs and adds nothing. */
  lemma CleanedHeaderStable(header: seq<string>)
    requires forall i :: 0 <= i < |RequiredColumns| ==> RequiredColumns[i] in header
    ensures forall i :: 0 <= i < |RequiredColumns| ==> RequiredColumns[i] in CleanedHeader(header)
    ensures CleanedHeader(CleanedHeader(header)) == CleanedHeader(header)
  {
  }

  /** Rows that are already tagged keep every position and stay as they are. */
  lemma TagAllFixed(rows: seq<Record>)
    requires forall k :: 0 <= k < |rows| ==> DateConverts(rows[k]) && Tag(rows[k]) == rows[k]
    ensures Positions(rows, DateConverts, 0) == Range(0, |rows|)
    ensures |Positions(rows, DateFails, 0)| == 0
    ensures TagAll(rows, Range(0, |rows|)) == rows
  {
    AllPositions(rows, DateConverts, 0);
    PartitionSizes(rows, DateConverts, DateFails, 0);
  }

  /** Cleaning is idempotent: the cleaned file cleans to itself, every row kept and none failed. */
  lemma CleanIdempotent(t: Table)
    requires Clean(t).Ok?
    ensures var once := Clean(t).value.table;
      && Clean(once).Ok?
      && Clean(once).value.table == once
      && Clean(once).value.failed == 0
  {
    var c := Clean(t).value;
    var once := c.table;
    CleanedHeaderStable(t.header);
    forall k | 0 <= k < |once.rows|
      ensures DateConverts(once.rows[k]) && Tag(once.rows[k]) == once.rows[k]
    {
      TagIdempotent(t.rows[c.kept[k]]);
    }
    TagAllFixed(once.rows);
  }
}

=== FILE: export.dfy ===
/** The offline asset export (backend/scripts/export_preprocessor.py): the schema, the
    per-column label encoders and the scaler are fitted on the cleaned reservation table.
    These assets are exactly what the serving pipeline in `Features` reads. */
module Export {
  import opened Results
  import opened Records
  import opened LabelEncoding
  import opened Filtering
  import opened Features

  /** A column as pandas types it: numbers, or strings (`object` dtype). */
  datatype ColumnData = Numbers(xs: seq<real>) | Labels(ls: seq<string>)

  datatype Column = Column(name: string, data: ColumnData)

  /** A data frame: named columns of `rows` cells each. */
  datatype Frame = Frame(columns: seq<Column>, rows: nat)

  function Height(d: ColumnData): nat {
    match d
    case Numbers(xs) => |xs|
    case Labels(ls) => |ls|
  }

  function Names(cols: seq<Column>): (ns: seq<string>)
    ensures |ns| == |cols|
    ensures forall i :: 0 <= i < |cols| ==> ns[i] == cols[i].name
  {
    seq(|cols|, i requires 0 <= i < |cols| => cols[i].name)
  }

  /** Column names are unique (pandas' CSV reader renames duplicates) and every column has
      one cell per row. */
  predicate WellFormedFrame(f: Frame) {
    && LabelEncoding.Distinct(Names(f.columns))
    && forall i :: 0 <= i < |f.columns| ==> Height(f.columns[i].data) == f.rows
  }

  /** The identifier, the two target columns and the derived date are not features. */
  const Excluded: set<string> := {"Booking_ID", "booking_status", "arrival_datetime", "booking_status_numeric"}

  predicate IsFeature(c: Column) {
    c.name !in Excluded
  }

  /** `data.drop(columns=Excluded, errors='ignore')`: absent names are ignored, order is kept. */
  function Reduced(cols: seq<Column>): (x: seq<Column>)
    ensures forall k :: 0 <= k < |x| ==> x[k] in cols && IsFeature(x[k])
    ensures forall i :: 0 <= i < |cols| && IsFeature(cols[i]) ==> cols[i] in x
  {
    Filter(cols, IsFeature)
  }

  /** Position of a column name in the frame. */
  function ColumnIndex(f: Frame, name: string): nat
    requires name in Names(f.columns)
  {
    IndexOf(Names(f.columns), name)
  }

  /** The feature columns appear in the same relative order as in the data. */
  lemma ReducedKeepsOrder(f: Frame)
    requires WellFormedFrame(f)
    ensures var fc := Names(Reduced(f.columns));
      forall j, k :: 0 <= j < k < |fc| ==>
        fc[j] in Names(f.columns) && fc[k] in Names(f.columns) && ColumnIndex(f, fc[j]) < ColumnIndex(f, fc[k])
  {
    var names := Names(f.columns);
    var ps := Positions(f.columns, IsFeature, 0);
    var fc := Names(Reduced(f.columns));
    forall j, k | 0 <= j < k < |fc|
      ensures fc[j] in names && fc[k] in names && ColumnIndex(f, fc[j]) < ColumnIndex(f, fc[k])
    {
      assert fc[j] == names[ps[j]] && fc[k] == names[ps[k]];
      IndexOfPosition(names, ps[j]);
      IndexOfPosition(names, ps[k]);
    }
  }

  /** `le.fit_transform(X[col])` for a string column; numeric columns are left alone. */
  function EncodeColumn(c: Column): (e: Column)
    ensures e.name == c.name && e.data.Numbers? && Height(e.data) == Height(c.data)
    ensures c.data.Numbers? ==> e == c
    ensures c.data.Labels? ==> forall k :: 0 <= k < |c.data.ls| ==>
      c.data.ls[k] in Fit(c.data.ls) && e.data.xs[k] == IndexOf(Fit(c.data.ls), c.data.ls[k]) as real
  {
    match c.data
    case Numbers(_) => c
    case Labels(ls) =>
      var cs := Fit(ls);
      var codes := Transform(cs, ls);
      Column(c.name, Numbers(seq(|ls|, k requires 0 <= k < |ls| => codes[k] as real)))
  }

  function Sum(xs: seq<real>): real {
    if |xs| == 0 then 0.0 else Sum(xs[..|xs| - 1]) + xs[|xs| - 1]
  }

  /** `StandardScaler.mean_` for one column: the value whose `n` copies add up to the column. */
  function Mean(xs: seq<real>): (m: real)
    requires |xs| > 0
    ensures m * |xs| as real == Sum(xs)
  {
    Sum(xs) / |xs| as real
  }

  lemma {:induction false} SumWithin(xs: seq<real>, lo: real, hi: real)
    requires forall i :: 0 <= i < |xs| ==> lo <= xs[i] <= hi
    ensures lo * |xs| as real <= Sum(xs) <= hi * |xs| as real
    decreases |xs|
  {
    if |xs| > 0 {
      SumWithin(xs[..|xs| - 1], lo, hi);
    }
  }

  /** A column's mean lies between its smallest and largest values; a constant column's
      mean is that constant. */
  lemma MeanWithin(xs: seq<real>, lo: real, hi: real)
    requires |xs| > 0
    requires forall i :: 0 <= i < |xs| ==> lo <= xs[i] <= hi
    ensures lo <= Mean(xs) <= hi
  {
    var n := |xs| as real;
    SumWithin(xs, lo, hi);
    assert (Mean(xs) - lo) * n >= 0.0;
    assert (hi - Mean(xs)) * n >= 0.0;
  }

  /** The standard deviation StandardScaler stores per column (1 where it would be 0). */
  type Spread = seq<real> -> NonZero

  datatype ExportError = NothingToFit

  /** The fitted assets together with the encoded training columns. */
  datatype Exported = Exported(assets: Assets, encoded: seq<Column>)

  /** One encoder per string feature column, fitted on that column alone. */
  function Encoders(x: seq<Column>): (encs: map<string, Encoder>)
    requires LabelEncoding.Distinct(Names(x))
    ensures forall n :: n in encs <==> exists i :: 0 <= i < |x| && x[i].name == n && x[i].data.Labels?
    ensures forall i :: 0 <= i < |x| && x[i].data.Labels? ==> encs[x[i].name] == Encoder(Fit(x[i].data.ls))
  {
    map i | 0 <= i < |x| && x[i].data.Labels? :: x[i].name := Encoder(Fit(x[i].data.ls))
  }

  /** `StandardScaler.fit` on the encoded columns: one mean and one scale per column, in
      column order, each computed from that column alone. */
  function FitScaler(encoded: seq<Column>, spread: Spread): (sc: Scaler)
    requires forall i :: 0 <= i < |encoded| ==> encoded[i].data.Numbers? && |encoded[i].data.xs| > 0
    ensures ScalerFits(sc, |encoded|)
    ensures forall i :: 0 <= i < |encoded| ==>
      sc.mean[i] == Mean(encoded[i].data.xs) && sc.scale[i] == spread(encoded[i].data.xs)
  {
    Scaler(
      seq(|encoded|, i requires 0 <= i < |encoded| => Mean(encoded[i].data.xs)),
      seq(|encoded|, i requires 0 <= i < |encoded| => spread(encoded[i].data.xs)))
  }

  /** Fitting on the feature columns `x`: one encoder per string column, the encoded
      columns, and the scaler fitted on those. */
  function FitAssets(x: seq<Column>, spread: Spread): (e: Exported)
    requires LabelEncoding.Distinct(Names(x))
    requires forall i :: 0 <= i < |x| ==> Height(x[i].data) > 0
    ensures e.assets.featureColumns == Names(x)
    ensures |e.encoded| == |x| && forall i :: 0 <= i < |x| ==> e.encoded[i] == EncodeColumn(x[i])
    ensures forall i :: 0 <= i < |x| ==> e.encoded[i].data.Numbers? && |e.encoded[i].data.xs| == Height(x[i].data)
    ensures e.assets.encoders == Encoders(x)
    ensures e.assets.scaler == FitScaler(e.encoded, spread)
  {
    var encoded := seq(|x|, i requires 0 <= i < |x| => EncodeColumn(x[i]));
    Exported(Assets(Names(x), Encoders(x), FitScaler(encoded, spread)), encoded)
  }

  /** The script end to end. The scaler needs at least one row and one feature column. */
  function ExportAssets(f: Frame, spread: Spread): (r: Result<Exported, ExportError>)
    requires WellFormedFrame(f)
    ensures r.Ok? <==> f.rows > 0 && |Reduced(f.columns)| > 0
    ensures r.Ok? ==> LabelEncoding.Distinct(Names(Reduced(f.columns)))
    ensures r.Ok? ==> forall i :: 0 <= i < |Reduced(f.columns)| ==> Height(Reduced(f.columns)[i].data) == f.rows
    ensures r.Ok? ==> r.value == FitAssets(Reduced(f.columns), spread)
  {
    var x := Reduced(f.columns);
    if f.rows == 0 || |x| == 0 then Err(NothingToFit)
    else
      ReducedDistinct(f);
      ReducedHeights(f);
      Ok(FitAssets(x, spread))
  }

  /** The exported assets satisfy what the serving pipeline needs to succeed: every encoder
      names a feature column and has at least one class, and the scaler has one column per
      feature column. */
  lemma ExportedAssetsWellFormed(f: Frame, spread: Spread)
    requires WellFormedFrame(f)
    requires ExportAssets(f, spread).Ok?
    ensures WellFormed(ExportAssets(f, spread).value.assets)
  {
    var x := Reduced(f.columns);
    var a := ExportAssets(f, spread).value.assets;
    forall n | n in a.encoders
      ensures n in a.featureColumns && |a.encoders[n].classes| > 0
    {
      var i :| 0 <= i < |x| && x[i].name == n && x[i].data.Labels?;
      FeatureColumnCell(f, 0, i);
      assert x[i].data.ls[0] in Fit(x[i].data.ls);
      assert a.featureColumns[i] == n;
    }
  }

  /** The encoder keys are exactly the string feature columns, and each encoder was fitted on
      its own column: its classes are that column's distinct values, in sorted order. */
  lemma ExportedEncoders(f: Frame, spread: Spread)
    requires WellFormedFrame(f)
    requires ExportAssets(f, spread).Ok?
    ensures var x := Reduced(f.columns);
      var a := ExportAssets(f, spread).value.assets;
      && (forall n :: n in a.encoders <==> exists i :: 0 <= i < |x| && x[i].name == n && x[i].data.Labels?)
      && (forall i :: 0 <= i < |x| && x[i].data.Labels? ==>
            var cs := a.encoders[x[i].name].classes;
            StrictlySorted(cs) && forall s :: s in cs <==> s in x[i].data.ls)
  {
  }

  /** After fitting, every cell of a string feature column holds a valid code of that column's
      encoder, and the code decodes back to the cell's label. */
  lemma EncodedCellsAreValidCodes(f: Frame, spread: Spread, i: nat, k: nat)
    requires WellFormedFrame(f)
    requires ExportAssets(f, spread).Ok?
    requires var x := Reduced(f.columns); i < |x| && x[i].data.Labels? && k < f.rows
    ensures var x := Reduced(f.columns);
      var e := ExportAssets(f, spread).value;
      var cs := e.assets.encoders[x[i].name].classes;
      var code := e.encoded[i].data.xs[k];
      exists c: nat :: c < |cs| && code == c as real && cs[c] == x[i].data.ls[k]
  {
    var x := Reduced(f.columns);
    var e := ExportAssets(f, spread).value;
    assert x[i] in f.columns;
    var j :| 0 <= j < |f.columns| && f.columns[j] == x[i];
    var cs := Fit(x[i].data.ls);
    var c := IndexOf(cs, x[i].data.ls[k]);
    assert e.encoded[i].data.xs[k] == c as real;
  }

  /** The cell of row `k` as the serving side receives it. */
  function Cell(d: ColumnData, k: nat): Value
    requires k < Height(d)
  {
    match d
    case Numbers(xs) => RealVal(xs[k])
    case Labels(ls) => StrVal(ls[k])
  }

  /** Row `k` of the data as a record, all columns included (identifier and targets too). */
  function RowRecord(f: Frame, k: nat): (r: Record)
    requires WellFormedFrame(f) && k < f.rows
    ensures forall i :: 0 <= i < |f.columns| ==> f.columns[i].name in r && r[f.columns[i].name] == Cell(f.columns[i].data, k)
  {
    map i | 0 <= i < |f.columns| :: f.columns[i].name := Cell(f.columns[i].data, k)
  }

  /** Cell `k` of an encoded column (0 where the column has no such numeric cell). */
  function Entry(c: Column, k: nat): real {
    if c.data.Numbers? && k < |c.data.xs| then c.data.xs[k] else 0.0
  }

  /** Row `k` of the label-encoded training matrix `X`, before scaling. */
  function TrainingRow(e: Exported, k: nat): seq<real> {
    seq(|e.encoded|, i requires 0 <= i < |e.encoded| => Entry(e.encoded[i], k))
  }

  /** Every feature column is a column of the frame: it has one cell per row, and a row's
      record holds that cell under the column's name. */
  lemma FeatureColumnCell(f: Frame, k: nat, i: nat)
    requires WellFormedFrame(f) && k < f.rows && i < |Reduced(f.columns)|
    ensures var c := Reduced(f.columns)[i];
      && Height(c.data) == f.rows
      && c.name in RowRecord(f, k) && RowRecord(f, k)[c.name] == Cell(c.data, k)
  {
    var x := Reduced(f.columns);
    var j :| 0 <= j < |f.columns| && f.columns[j] == x[i];
  }

  /** Column `i` of a training row, passed through the serving encoder, carries the code
      the training encoding gave that cell. */
  lemma ServedCellMatches(x: seq<Column>, r: Record, k: nat, i: nat)
    requires LabelEncoding.Distinct(Names(x))
    requires EncodersFit(Names(x), Encoders(x))
    requires i < |x| && k < Height(x[i].data)
    requires x[i].name in r && r[x[i].name] == Cell(x[i].data, k)
    ensures var enc := EncodeRow(Align(r, Names(x)), Names(x), Encoders(x)).value;
      && EncodeColumn(x[i]).data.Numbers? && k < |EncodeColumn(x[i]).data.xs|
      && IsNumber(enc[i]) && AsReal(enc[i]) == EncodeColumn(x[i]).data.xs[k]
  {
    if x[i].data.Labels? {
      ServedLabelCell(Names(x), Encoders(x), r, x[i], i, k);
    } else {
      assert Names(x)[i] !in Encoders(x);
      ServedNumberCell(Names(x), Encoders(x), r, x[i], i, k);
    }
  }

  /** A label cell of a string feature column is served as its training code. */
  lemma ServedLabelCell(cols: seq<string>, encs: map<string, Encoder>, r: Record, c: Column, i: nat, k: nat)
    requires EncodersFit(cols, encs)
    requires i < |cols| && cols[i] == c.name && c.data.Labels? && k < |c.data.ls|
    requires c.name in encs && encs[c.name] == Encoder(Fit(c.data.ls))
    requires c.name in r && r[c.name] == StrVal(c.data.ls[k])
    ensures var enc := EncodeRow(Align(r, cols), cols, encs).value;
      && k < |EncodeColumn(c).data.xs|
      && enc[i].IntVal? && enc[i].n as real == EncodeColumn(c).data.xs[k]
  {
    var aligned := Align(r, cols);
    assert aligned[i] == StrVal(c.data.ls[k]);
    EncodedKnownCell(aligned, cols, encs, i);
  }

  /** A number cell of a numeric feature column is served unchanged. */
  lemma ServedNumberCell(cols: seq<string>, encs: map<string, Encoder>, r: Record, c: Column, i: nat, k: nat)
    requires EncodersFit(cols, encs)
    requires i < |cols| && cols[i] == c.name && cols[i] !in encs && c.data.Numbers? && k < |c.data.xs|
    requires c.name in r && r[c.name] == RealVal(c.data.xs[k])
    ensures EncodeRow(Align(r, cols), cols, encs).value[i] == RealVal(c.data.xs[k])
  {
  }

  /** A record holds cell `k` of every feature column under the column's name. */
  predicate CarriesRow(x: seq<Column>, k: nat, r: Record) {
    forall i :: 0 <= i < |x| ==> k < Height(x[i].data) && x[i].name in r && r[x[i].name] == Cell(x[i].data, k)
  }

  /** Row `k` of the encoded feature columns. */
  function EncodedRow(x: seq<Column>, k: nat): seq<real>
    requires forall i :: 0 <= i < |x| ==> k < Height(x[i].data)
  {
    seq(|x|, i requires 0 <= i < |x| => EncodeColumn(x[i]).data.xs[k])
  }

  /** A row of numbers converts to the reals they denote. */
  lemma ToRealsOfNumbers(enc: seq<Value>, row: seq<real>)
    requires |enc| == |row|
    requires forall i :: 0 <= i < |enc| ==> IsNumber(enc[i]) && AsReal(enc[i]) == row[i]
    ensures ToReals(enc) == Ok(row)
  {
    assert ToReals(enc).value == row;
  }

  /** Encoding and float conversion of a record carrying row `k` yield row `k` of the
      encoded columns. */
  lemma ServedRowMatches(x: seq<Column>, k: nat, r: Record)
    requires LabelEncoding.Distinct(Names(x))
    requires EncodersFit(Names(x), Encoders(x))
    requires CarriesRow(x, k, r)
    ensures var enc := EncodeRow(Align(r, Names(x)), Names(x), Encoders(x));
      enc.Ok? && ToReals(enc.value) == Ok(EncodedRow(x, k))
  {
    var enc := EncodeRow(Align(r, Names(x)), Names(x), Encoders(x)).value;
    var row := EncodedRow(x, k);
    forall i | 0 <= i < |x|
      ensures IsNumber(enc[i]) && AsReal(enc[i]) == row[i]
    {
      ServedCellMatches(x, r, k, i);
    }
    ToRealsOfNumbers(enc, row);
  }

  /** The serving pipeline, run with assets fitted on the feature columns `x`, turns any record
      carrying row `k` into the scaler applied to row `k` of the encoded columns. */
  lemma ServingMatchesEncoding(x: seq<Column>, a: Assets, k: nat, r: Record)
    requires LabelEncoding.Distinct(Names(x))
    requires a.featureColumns == Names(x) && a.encoders == Encoders(x) && WellFormed(a)
    requires CarriesRow(x, k, r)
    ensures Preprocess(a, r) == Scale(EncodedRow(x, k), a.scaler)
  {
    ServedRowMatches(x, k, r);
  }

  /** Training/serving consistency: serving a row of the training data through the exported
      assets reproduces, column for column, the row the model was trained on (row `k` of
      `scaler.fit_transform(X)` is the scaler applied to row `k` of the encoded `X`). */
  lemma ServingReplaysTraining(f: Frame, spread: Spread, k: nat)
    requires WellFormedFrame(f)
    requires ExportAssets(f, spread).Ok? && k < f.rows
    ensures var e := ExportAssets(f, spread).value;
      && (forall i :: 0 <= i < |e.encoded| ==> e.encoded[i].data.Numbers? && k < |e.encoded[i].data.xs|)
      && Preprocess(e.assets, RowRecord(f, k)) == Scale(TrainingRow(e, k), e.assets.scaler)
      && Preprocess(e.assets, RowRecord(f, k)).Ok?
  {
    var e := ExportAssets(f, spread).value;
    var x := Reduced(f.columns);
    ExportedAssetsWellFormed(f, spread);
    RowRecordCarriesRow(f, k);
    ServingMatchesEncoding(x, e.assets, k, RowRecord(f, k));
    TrainingRowIsEncodedRow(e, x, k);
  }

  /** A row of the encoded training matrix is the same row of the encoded feature columns. */
  lemma TrainingRowIsEncodedRow(e: Exported, x: seq<Column>, k: nat)
    requires |e.encoded| == |x| && forall i :: 0 <= i < |x| ==> e.encoded[i] == EncodeColumn(x[i])
    requires forall i :: 0 <= i < |x| ==> k < Height(x[i].data)
    ensures forall i :: 0 <= i < |e.encoded| ==> e.encoded[i].data.Numbers? && k < |e.encoded[i].data.xs|
    ensures TrainingRow(e, k) == EncodedRow(x, k)
  {
    assert forall i :: 0 <= i < |x| ==> TrainingRow(e, k)[i] == EncodedRow(x, k)[i];
  }

  /** A row of the data, as a record, carries that row of every feature column. */
  lemma RowRecordCarriesRow(f: Frame, k: nat)
    requires WellFormedFrame(f) && k < f.rows
    ensures CarriesRow(Reduced(f.columns), k, RowRecord(f, k))
  {
    var x := Reduced(f.columns);
    forall i | 0 <= i < |x|
      ensures k < Height(x[i].data) && x[i].name in RowRecord(f, k) && RowRecord(f, k)[x[i].name] == Cell(x[i].data, k)
    {
      FeatureColumnCell(f, k, i);
    }
  }

  /** Every feature column has one cell per row. */
  lemma ReducedHeights(f: Frame)
    requires WellFormedFrame(f)
    ensures forall i :: 0 <= i < |Reduced(f.columns)| ==> Height(Reduced(f.columns)[i].data) == f.rows
  {
    var x := Reduced(f.columns);
    assert forall i :: 0 <= i < |x| ==> x[i] in f.columns;
  }

  /** The reduced frame keeps unique names. */
  lemma ReducedDistinct(f: Frame)
    requires WellFormedFrame(f)
    ensures LabelEncoding.Distinct(Names(Reduced(f.columns)))
  {
    var ps := Positions(f.columns, IsFeature, 0);
    var x := Reduced(f.columns);
    forall j, k | 0 <= j < k < |x|
      ensures x[j].name != x[k].name
    {
      assert x[j] == f.columns[ps[j]] && x[k] == f.columns[ps[k]];
      assert Names(f.columns)[ps[j]] == x[j].name;
      assert Names(f.columns)[ps[k]] == x[k].name;
    }
  }
}

=== FILE: features.dfy ===
/** The serving-side feature pipeline of `HotelModelWrapper` (backend/utils.py): an open record
    is zero-filled, reduced and reordered to the feature schema, label-encoded with an
    unknown-label fallback, and standard-scaled, before the classifier scores it. */
module Features {
  import opened Results
  import opened Records
  import opened LabelEncoding

  type NonZero = x: real | x != 0.0 witness 1.0

  /** A fitted label encoder, reduced to its frozen class list. */
  datatype Encoder = Encoder(classes: Classes)

  /** A fitted StandardScaler: per-column mean and scale (never zero). */
  datatype Scaler = Scaler(mean: seq<real>, scale: seq<NonZero>)

  /** The four artifacts loaded at startup; the classifier is passed separately. */
  datatype Assets = Assets(featureColumns: seq<string>, encoders: map<string, Encoder>, scaler: Scaler)

  /** The trained network, seen only as a deterministic map from a scaled row to a probability. */
  type Classifier = seq<real> -> real

  /** Every way preprocessing can raise collapses into one failure. */
  datatype PreprocessError = PreprocessFailed

  /** The value a schema column absent from the record is filled with. */
  const MissingDefault: Value := IntVal(0)

  /** The cell the aligned row holds for column `c`. */
  function CellFor(r: Record, c: string): Value {
    if c in r then r[c] else MissingDefault
  }

  /** Step 1: add every schema column the record lacks, set to zero. */
  function Fill(r: Record, cols: seq<string>): (f: Record)
    ensures forall i :: 0 <= i < |cols| ==> cols[i] in f
    ensures forall k :: k in r ==> k in f && f[k] == r[k]
    ensures forall k :: k in f ==> k in r || k in cols
    ensures forall i :: 0 <= i < |cols| && cols[i] !in r ==> f[cols[i]] == MissingDefault
  {
    r + map c | c in cols && c !in r :: MissingDefault
  }

  /** Steps 1 and 2: the row in schema order; fields outside the schema are dropped. */
  function Align(r: Record, cols: seq<string>): (v: seq<Value>)
    ensures |v| == |cols|
    ensures forall i :: 0 <= i < |cols| ==> v[i] == CellFor(r, cols[i])
  {
    var f := Fill(r, cols);
    seq(|cols|, i requires 0 <= i < |cols| => f[cols[i]])
  }

  /** A string cell whose label the encoder knows. */
  predicate Known(v: Value, cs: Classes) {
    v.StrVal? && v.text in cs
  }

  /** Step 3 for one cell: an unknown label (or a non-string cell) is replaced by the first
      class, then the label is encoded; an encoder without classes cannot supply a fallback. */
  function EncodeCell(v: Value, cs: Classes): (code: Result<nat, PreprocessError>)
    ensures code.Ok? <==> |cs| > 0
    ensures code.Ok? ==> code.value < |cs|
    ensures code.Ok? && Known(v, cs) ==> cs[code.value] == v.text
    ensures code.Ok? && !Known(v, cs) ==> code.value == 0
  {
    if |cs| == 0 then Err(PreprocessFailed)
    else
      var chosen := if Known(v, cs) then v.text else cs[0];
      Ok(IndexOf(cs, chosen))
  }

  /** Every encoder names a schema column and has at least one class. */
  predicate EncodersFit(cols: seq<string>, encs: map<string, Encoder>) {
    forall c :: c in encs ==> c in cols && |encs[c].classes| > 0
  }

  /** Step 3: each column that has an encoder is replaced by its code; other columns pass through. */
  function EncodeRow(row: seq<Value>, cols: seq<string>, encs: map<string, Encoder>): (e: Result<seq<Value>, PreprocessError>)
    requires |row| == |cols|
    ensures e.Ok? <==> EncodersFit(cols, encs)
    ensures e.Ok? ==> |e.value| == |row|
    ensures e.Ok? ==> forall i :: 0 <= i < |row| && cols[i] !in encs ==> e.value[i] == row[i]
    ensures e.Ok? ==> forall i :: 0 <= i < |row| && cols[i] in encs ==>
      var cs := encs[cols[i]].classes;
      && e.value[i].IntVal? && 0 <= e.value[i].n < |cs|
      && (Known(row[i], cs) ==> cs[e.value[i].n] == row[i].text)
      && (!Known(row[i], cs) ==> e.value[i].n == 0)
  {
    if !EncodersFit(cols, encs) then Err(PreprocessFailed)
    else
      Ok(seq(|row|, i requires 0 <= i < |row| =>
        if cols[i] in encs then IntVal(EncodeCell(row[i], encs[cols[i]].classes).value) else row[i]))
  }

  /** A label the column's encoder knows is encoded as its position among the classes. */
  lemma EncodedKnownCell(row: seq<Value>, cols: seq<string>, encs: map<string, Encoder>, i: nat)
    requires |row| == |cols| && EncodersFit(cols, encs)
    requires i < |row| && cols[i] in encs && Known(row[i], encs[cols[i]].classes)
    ensures EncodeRow(row, cols, encs).value[i] == IntVal(IndexOf(encs[cols[i]].classes, row[i].text))
  {
    var cs := encs[cols[i]].classes;
    var e := EncodeRow(row, cols, encs).value;
    IndexOfPosition(cs, e[i].n);
  }

  /** The conversion to a float matrix inside `scaler.transform`. */
  function ToReals(row: seq<Value>): (x: Result<seq<real>, PreprocessError>)
    ensures x.Ok? <==> forall i :: 0 <= i < |row| ==> IsNumber(row[i])
    ensures x.Ok? ==> |x.value| == |row|
    ensures x.Ok? ==> forall i :: 0 <= i < |row| ==> x.value[i] == AsReal(row[i])
  {
    if forall i :: 0 <= i < |row| ==> IsNumber(row[i]) then
      Ok(seq(|row|, i requires 0 <= i < |row| => AsReal(row[i])))
    else Err(PreprocessFailed)
  }

  /** The scaler was fitted on exactly `n` columns. */
  predicate ScalerFits(sc: Scaler, n: nat) {
    |sc.mean| == n && |sc.scale| == n
  }

  /** Undoes the scaling of column `i` (`StandardScaler.inverse_transform`). */
  function Unscale(sc: Scaler, y: seq<real>, i: nat): real
    requires ScalerFits(sc, |y|) && i < |y|
  {
    y[i] * sc.scale[i] + sc.mean[i]
  }

  /** Step 4: `StandardScaler.transform`, column by column. */
  function Scale(x: seq<real>, sc: Scaler): (y: Result<seq<real>, PreprocessError>)
    ensures y.Ok? <==> ScalerFits(sc, |x|)
    ensures y.Ok? ==> |y.value| == |x|
    ensures y.Ok? ==> forall i :: 0 <= i < |x| ==> Unscale(sc, y.value, i) == x[i]
  {
    if !ScalerFits(sc, |x|) then Err(PreprocessFailed)
    else
      var y := seq(|x|, i requires 0 <= i < |x| => (x[i] - sc.mean[i]) / sc.scale[i]);
      assert forall i :: 0 <= i < |x| ==> y[i] * sc.scale[i] == x[i] - sc.mean[i] by {
        forall i | 0 <= i < |x| ensures y[i] * sc.scale[i] == x[i] - sc.mean[i] {
          DivMul(x[i] - sc.mean[i], sc.scale[i]);
        }
      }
      Ok(y)
  }

  lemma DivMul(a: real, b: NonZero)
    ensures (a / b) * b == a
  {
  }

  /** Column `i` of the scaled row depends on column `i` of its input and nothing else. */
  lemma ScaleIsColumnwise(x1: seq<real>, x2: seq<real>, sc: Scaler, i: nat)
    requires |x1| == |x2| && i < |x1|
    requires Scale(x1, sc).Ok?
    requires x1[i] == x2[i]
    ensures Scale(x2, sc).Ok?
    ensures Scale(x1, sc).value[i] == Scale(x2, sc).value[i]
  {
    var y1, y2 := Scale(x1, sc).value, Scale(x2, sc).value;
    assert y1[i] * sc.scale[i] == y2[i] * sc.scale[i];
    Cancel(y1[i], y2[i], sc.scale[i]);
  }

  /** Scaling with a fitted scaler loses nothing: two inputs with the same scaled row are equal. */
  lemma ScaleInjective(x1: seq<real>, x2: seq<real>, sc: Scaler)
    requires Scale(x1, sc).Ok? && Scale(x1, sc) == Scale(x2, sc)
    ensures x1 == x2
  {
    var y := Scale(x1, sc).value;
    assert |x1| == |y| == |x2|;
    forall i | 0 <= i < |x1|
      ensures x1[i] == x2[i]
    {
      assert x1[i] == Unscale(sc, y, i) == x2[i];
    }
  }

  lemma Cancel(a: real, b: real, c: NonZero)
    requires a * c == b * c
    ensures a == b
  {
    assert (a - b) * c == 0.0;
  }

  /** `HotelModelWrapper.preprocess`. */
  function Preprocess(a: Assets, r: Record): (v: Result<seq<real>, PreprocessError>)
    ensures v.Ok? ==> |v.value| == |a.featureColumns|
  {
    var aligned := Align(r, a.featureColumns);
    var encoded :- EncodeRow(aligned, a.featureColumns, a.encoders);
    var numeric :- ToReals(encoded);
    Scale(numeric, a.scaler)
  }

  /** `HotelModelWrapper.predict`: the classifier applied to the preprocessed row. */
  function Predict(a: Assets, model: Classifier, r: Record): (p: Result<real, PreprocessError>)
    ensures p.Ok? <==> Preprocess(a, r).Ok?
    ensures p.Ok? ==> p.value == model(Preprocess(a, r).value)
  {
    var x :- Preprocess(a, r);
    Ok(model(x))
  }

  /** The assets are mutually consistent: encoders name schema columns and have classes,
      and the scaler has one column per schema column. */
  predicate WellFormed(a: Assets) {
    EncodersFit(a.featureColumns, a.encoders) && ScalerFits(a.scaler, |a.featureColumns|)
  }

  /** Every supplied schema field without an encoder holds a number. */
  predicate NumericWherePresent(a: Assets, r: Record) {
    forall i :: 0 <= i < |a.featureColumns| && a.featureColumns[i] !in a.encoders && a.featureColumns[i] in r
      ==> IsNumber(r[a.featureColumns[i]])
  }

  /** Preprocessing fails exactly when the assets are inconsistent or a numeric field holds
      something that is not a number; the shape of the record never makes it fail. */
  lemma PreprocessSucceedsIff(a: Assets, r: Record)
    ensures Preprocess(a, r).Ok? <==> WellFormed(a) && NumericWherePresent(a, r)
  {
    var cols := a.featureColumns;
    var aligned := Align(r, cols);
    var e := EncodeRow(aligned, cols, a.encoders);
    if e.Ok? {
      var ok := forall i :: 0 <= i < |cols| ==> IsNumber(e.value[i]);
      if ok {
        forall i | 0 <= i < |cols| && cols[i] !in a.encoders && cols[i] in r
          ensures IsNumber(r[cols[i]])
        {
          assert e.value[i] == aligned[i] == r[cols[i]];
        }
      }
      if NumericWherePresent(a, r) {
        forall i | 0 <= i < |cols|
          ensures IsNumber(e.value[i])
        {
          if cols[i] !in a.encoders {
            assert e.value[i] == aligned[i] == CellFor(r, cols[i]);
          }
        }
      }
    }
  }

  /** Whatever the record holds, a successful preprocessing yields one value per schema column. */
  lemma AlignedLength(a: Assets, r: Record)
    requires Preprocess(a, r).Ok?
    ensures |Preprocess(a, r).value| == |a.featureColumns|
  {
  }

  /** Two records that agree on every schema field preprocess alike. */
  predicate AgreeOnSchema(r1: Record, r2: Record, cols: seq<string>) {
    forall i :: 0 <= i < |cols| ==> CellFor(r1, cols[i]) == CellFor(r2, cols[i])
  }

  lemma PreprocessReadsOnlySchema(a: Assets, r1: Record, r2: Record)
    requires AgreeOnSchema(r1, r2, a.featureColumns)
    ensures Preprocess(a, r1) == Preprocess(a, r2)
  {
    assert Align(r1, a.featureColumns) == Align(r2, a.featureColumns);
  }

  /** `predict` is deterministic and blind to fields outside the schema. */
  lemma PredictReadsOnlySchema(a: Assets, model: Classifier, r1: Record, r2: Record)
    requires AgreeOnSchema(r1, r2, a.featureColumns)
    ensures Predict(a, model, r1) == Predict(a, model, r2)
  {
    PreprocessReadsOnlySchema(a, r1, r2);
  }

  /** Adding fields the schema does not name changes nothing. */
  lemma ExtraFieldsIgnored(a: Assets, model: Classifier, r: Record, extra: Record)
    requires forall i :: 0 <= i < |a.featureColumns| ==> a.featureColumns[i] !in extra
    ensures Predict(a, model, r + extra) == Predict(a, model, r)
  {
    assert AgreeOnSchema(r + extra, r, a.featureColumns);
    PredictReadsOnlySchema(a, model, r + extra, r);
  }

  /** What column `i` of a preprocessed row encodes, once the scaling is undone:
      a categorical column carries the code of its label, the fallback code 0 for an unknown
      label or a missing field; a numeric column carries the supplied number, or 0. */
  lemma PreprocessedColumn(a: Assets, r: Record, i: nat)
    requires Preprocess(a, r).Ok? && i < |a.featureColumns|
    ensures ScalerFits(a.scaler, |Preprocess(a, r).value|)
    ensures var c := a.featureColumns[i];
      var u := Unscale(a.scaler, Preprocess(a, r).value, i);
      && (c in a.encoders ==>
            var cs := a.encoders[c].classes;
            && (Known(CellFor(r, c), cs) ==> u == IndexOf(cs, r[c].text) as real)
            && (!Known(CellFor(r, c), cs) ==> u == 0.0)
            && (c !in r ==> u == 0.0))
      && (c !in a.encoders ==> IsNumber(CellFor(r, c)) && u == AsReal(CellFor(r, c)))
  {
    var cols := a.featureColumns;
    var c := cols[i];
    var aligned := Align(r, cols);
    var e := EncodeRow(aligned, cols, a.encoders).value;
    var x := ToReals(e).value;
    assert Unscale(a.scaler, Preprocess(a, r).value, i) == x[i];
    if c in a.encoders {
      var cs := a.encoders[c].classes;
      if Known(CellFor(r, c), cs) {
        IndexOfPosition(cs, e[i].n);
      }
    }
  }
}

=== FILE: filtering.dfy ===
/** Order-preserving selection of the elements of a sequence that satisfy a test
    (pandas boolean-mask selection, `drop(columns=...)`, `dropna`). */
module Filtering {

  /** Positions `i >= from` of the elements that pass `keep`, in increasing order. */
  function Positions<T>(xs: seq<T>, keep: T -> bool, from: nat): (ps: seq<nat>)
    requires from <= |xs|
    ensures |ps| <= |xs| - from
    ensures forall k :: 0 <= k < |ps| ==> from <= ps[k] < |xs| && keep(xs[ps[k]])
    ensures forall k, l :: 0 <= k < l < |ps| ==> ps[k] < ps[l]
    ensures forall i :: from <= i < |xs| && keep(xs[i]) ==> i in ps
    decreases |xs| - from
  {
    if from == |xs| then []
    else if keep(xs[from]) then [from] + Positions(xs, keep, from + 1)
    else Positions(xs, keep, from + 1)
  }

  /** The elements that pass `keep`, in their original relative order. */
  function Filter<T>(xs: seq<T>, keep: T -> bool): (ys: seq<T>)
    ensures |ys| == |Positions(xs, keep, 0)|
    ensures forall k :: 0 <= k < |ys| ==> ys[k] == xs[Positions(xs, keep, 0)[k]]
    ensures forall k :: 0 <= k < |ys| ==> ys[k] in xs && keep(ys[k])
    ensures forall i :: 0 <= i < |xs| && keep(xs[i]) ==> xs[i] in ys
  {
    var ps := Positions(xs, keep, 0);
    var ys := seq(|ps|, k requires 0 <= k < |ps| => xs[ps[k]]);
    assert forall i :: 0 <= i < |xs| && keep(xs[i]) ==> xs[i] in ys by {
      forall i | 0 <= i < |xs| && keep(xs[i]) ensures xs[i] in ys {
        var k :| 0 <= k < |ps| && ps[k] == i;
        assert ys[k] == xs[i];
      }
    }
    ys
  }

  /** Every element passes exactly one of two complementary tests, so the two selections
      together account for every element. */
  lemma {:induction false} PartitionSizes<T>(xs: seq<T>, keep: T -> bool, drop: T -> bool, from: nat)
    requires from <= |xs|
    requires forall x :: drop(x) == !keep(x)
    ensures |Positions(xs, keep, from)| + |Positions(xs, drop, from)| == |xs| - from
    decreases |xs| - from
  {
    if from < |xs| {
      PartitionSizes(xs, keep, drop, from + 1);
      var k, d := Positions(xs, keep, from + 1), Positions(xs, drop, from + 1);
      if keep(xs[from]) {
        assert Positions(xs, keep, from) == [from] + k;
        assert Positions(xs, drop, from) == d;
      } else {
        assert Positions(xs, keep, from) == k;
        assert Positions(xs, drop, from) == [from] + d;
      }
    }
  }

  /** The positions `lo`, `lo + 1`, ..., `hi - 1`. */
  function Range(lo: nat, hi: nat): (ps: seq<nat>)
    requires lo <= hi
    ensures |ps| == hi - lo
    ensures forall k :: 0 <= k < |ps| ==> ps[k] == lo + k
    decreases hi - lo
  {
    if lo == hi then [] else [lo] + Range(lo + 1, hi)
  }

  /** When every element passes the test, the selected positions are all of them. */
  lemma {:induction false} AllPositions<T>(xs: seq<T>, keep: T -> bool, from: nat)
    requires from <= |xs|
    requires forall i :: from <= i < |xs| ==> keep(xs[i])
    ensures Positions(xs, keep, from) == Range(from, |xs|)
    decreases |xs| - from
  {
    if from < |xs| {
      AllPositions(xs, keep, from + 1);
      assert keep(xs[from]);
    }
  }

  /** Appending an element adds one selected position exactly when the element passes. */
  lemma {:induction false} PositionsAppend<T>(xs: seq<T>, x: T, keep: T -> bool, from: nat)
    requires from <= |xs|
    ensures |Positions(xs + [x], keep, from)| == |Positions(xs, keep, from)| + (if keep(x) then 1 else 0)
    decreases |xs| - from
  {
    var ys := xs + [x];
    if from == |xs| {
      assert ys[from] == x;
      assert Positions(ys, keep, from + 1) == [];
    } else {
      assert ys[from] == xs[from];
      PositionsAppend(xs, x, keep, from + 1);
    }
  }
}

=== FILE: forecasting.dfy ===
/** The `/forecast` endpoint (backend/main.py): arrivals are bucketed into weeks ending on
    Sunday, a seasonal model is fitted to the weekly counts, and the response is shaped as
    the last twenty observed weeks, twelve forecast weeks and one interval per forecast week.
    The statistical fit is a parameter. Days are counted from 1970-01-01 (day 0, a Thursday). */
module Forecasting {
  import opened Results
  import opened Filtering

  /** The week a day falls in; week `w` runs from day `7w - 3` (a Monday) to day `7w + 3`
      (a Sunday), the bins of pandas' 'W' (= 'W-SUN') resampling. */
  function WeekOf(day: int): (w: int)
    ensures WeekEnd(w) - 7 < day <= WeekEnd(w)
  {
    (day + 3) / 7
  }

  /** The Sunday that ends week `w`, the label pandas gives the bin. */
  function WeekEnd(w: int): int {
    7 * w + 3
  }

  /** Number of arrivals in week `w`. */
  function CountIn(days: seq<int>, w: int): (n: nat)
    ensures n <= |days|
  {
    if |days| == 0 then 0
    else CountIn(days[..|days| - 1], w) + (if WeekOf(days[|days| - 1]) == w then 1 else 0)
  }

  /** The test "falls in week `w`". */
  function InWeek(w: int): int -> bool {
    d => WeekOf(d) == w
  }

  lemma {:induction false} CountInCountsSelection(days: seq<int>, w: int)
    ensures CountIn(days, w) == |Positions(days, InWeek(w), 0)|
    decreases |days|
  {
    if |days| > 0 {
      var init := days[..|days| - 1];
      CountInCountsSelection(init, w);
      assert days == init + [days[|days| - 1]];
      PositionsAppend(init, days[|days| - 1], InWeek(w), 0);
    }
  }

  /** A week's count is the number of arrivals that a mask on the week selects. */
  lemma CountInIsFilter(days: seq<int>, w: int)
    ensures CountIn(days, w) == |Filter(days, InWeek(w))|
  {
    CountInCountsSelection(days, w);
  }

  function FirstWeek(days: seq<int>): (w: int)
    requires |days| > 0
    ensures forall i :: 0 <= i < |days| ==> w <= WeekOf(days[i])
    ensures exists i :: 0 <= i < |days| && w == WeekOf(days[i])
  {
    if |days| == 1 then WeekOf(days[0])
    else
      var rest := FirstWeek(days[1..]);
      assert forall i :: 1 <= i < |days| ==> days[i] == days[1..][i - 1];
      if WeekOf(days[0]) <= rest then WeekOf(days[0]) else rest
  }

  function LastWeek(days: seq<int>): (w: int)
    requires |days| > 0
    ensures forall i :: 0 <= i < |days| ==> WeekOf(days[i]) <= w
    ensures exists i :: 0 <= i < |days| && w == WeekOf(days[i])
  {
    if |days| == 1 then WeekOf(days[0])
    else
      var rest := LastWeek(days[1..]);
      assert forall i :: 1 <= i < |days| ==> days[i] == days[1..][i - 1];
      if WeekOf(days[0]) >= rest then WeekOf(days[0]) else rest
  }

  /** The first arrival week is no later than the last. */
  lemma WeeksOrdered(days: seq<int>)
    requires |days| > 0
    ensures FirstWeek(days) <= LastWeek(days)
  {
    var w := WeekOf(days[0]);
    assert FirstWeek(days) <= w <= LastWeek(days);
  }

  /** `df.resample('W', on='arrival_datetime').size()`: one count per week from the first
      arrival's week to the last arrival's week, empty weeks included. */
  function Weekly(days: seq<int>): (counts: seq<nat>)
    requires |days| > 0
    ensures |counts| == LastWeek(days) - FirstWeek(days) + 1
    ensures counts == Counts(days, FirstWeek(days), |counts|)
  {
    var first := FirstWeek(days);
    WeeksOrdered(days);
    var n := LastWeek(days) - first + 1;
    Counts(days, first, n)
  }

  /** Every arrival counts towards its own week. */
  lemma {:induction false} CountInPositive(days: seq<int>, i: nat)
    requires i < |days|
    ensures CountIn(days, WeekOf(days[i])) >= 1
    decreases |days|
  {
    var init := days[..|days| - 1];
    if i < |days| - 1 {
      assert init[i] == days[i];
      CountInPositive(init, i);
    }
  }

  /** The weekly series covers every arrival's week and runs from the first arrival's week
      to the last one's, so it starts and ends with a week that has arrivals. */
  lemma WeeklySpan(days: seq<int>)
    requires |days| > 0
    ensures var counts := Weekly(days);
      && (forall i :: 0 <= i < |days| ==> FirstWeek(days) <= WeekOf(days[i]) < FirstWeek(days) + |counts|)
      && counts[0] >= 1 && counts[|counts| - 1] >= 1
  {
    var first := FirstWeek(days);
    var n := |Weekly(days)|;
    var i :| 0 <= i < |days| && first == WeekOf(days[i]);
    var j :| 0 <= j < |days| && LastWeek(days) == WeekOf(days[j]);
    CountsEnds(days, first, n, i, j);
  }

  /** A run of weeks that starts with one arrival's week and ends with another's starts and
      ends with a nonzero count. */
  lemma CountsEnds(days: seq<int>, lo: int, n: nat, i: nat, j: nat)
    requires n > 0 && i < |days| && j < |days|
    requires WeekOf(days[i]) == lo && WeekOf(days[j]) == lo + n - 1
    ensures Counts(days, lo, n)[0] >= 1 && Counts(days, lo, n)[n - 1] >= 1
  {
    CountInPositive(days, i);
    CountInPositive(days, j);
  }

  /** The arrival counts of the `n` weeks starting at week `lo`. */
  function Counts(days: seq<int>, lo: int, n: nat): (counts: seq<nat>)
    ensures |counts| == n
    ensures forall k :: 0 <= k < n ==> counts[k] == CountIn(days, lo + k)
  {
    seq<nat>(n, k requires 0 <= k < n => CountIn(days, lo + k))
  }

  function Sum(s: seq<nat>): nat {
    if |s| == 0 then 0 else Sum(s[..|s| - 1]) + s[|s| - 1]
  }

  /** Total arrivals over the `n` weeks starting at week `lo`. */
  function WindowTotal(days: seq<int>, lo: int, n: nat): nat {
    if n == 0 then 0 else WindowTotal(days, lo, n - 1) + CountIn(days, lo + n - 1)
  }

  /** Removing the last arrival lowers the window total by one exactly when its week is in the window. */
  lemma {:induction false} WindowDropLast(days: seq<int>, lo: int, n: nat)
    requires |days| > 0
    ensures var d := days[|days| - 1];
      WindowTotal(days, lo, n)
        == WindowTotal(days[..|days| - 1], lo, n) + (if lo <= WeekOf(d) < lo + n then 1 else 0)
  {
    if n > 0 {
      WindowDropLast(days, lo, n - 1);
    }
  }

  /** A window that covers every arrival's week totals the number of arrivals. */
  lemma {:induction false} WindowCoversAll(days: seq<int>, lo: int, n: nat)
    requires forall i :: 0 <= i < |days| ==> lo <= WeekOf(days[i]) < lo + n
    ensures WindowTotal(days, lo, n) == |days|
    decreases |days|
  {
    if |days| > 0 {
      var init := days[..|days| - 1];
      assert forall i :: 0 <= i < |init| ==> init[i] == days[i];
      WindowCoversAll(init, lo, n);
      WindowDropLast(days, lo, n);
      var d := days[|days| - 1];
      assert lo <= WeekOf(d) < lo + n;
      assert WindowTotal(days, lo, n) == |init| + 1;
    } else {
      WindowOfNothing(days, lo, n);
    }
  }

  lemma {:induction false} WindowOfNothing(days: seq<int>, lo: int, n: nat)
    requires |days| == 0
    ensures WindowTotal(days, lo, n) == 0
  {
    if n > 0 {
      WindowOfNothing(days, lo, n - 1);
    }
  }

  lemma {:induction false} SumIsWindowTotal(days: seq<int>, lo: int, n: nat)
    ensures Sum(seq<nat>(n, k requires 0 <= k < n => CountIn(days, lo + k))) == WindowTotal(days, lo, n)
  {
    if n > 0 {
      var s := seq<nat>(n, k requires 0 <= k < n => CountIn(days, lo + k));
      assert s[..n - 1] == seq<nat>(n - 1, k requires 0 <= k < n - 1 => CountIn(days, lo + k));
      SumIsWindowTotal(days, lo, n - 1);
    }
  }

  /** Every arrival is counted in exactly one week: the weekly counts sum to the number of arrivals. */
  lemma WeeklyTotal(days: seq<int>)
    requires |days| > 0
    ensures Sum(Weekly(days)) == |days|
  {
    var first := FirstWeek(days);
    var n := LastWeek(days) - first + 1;
    assert Weekly(days) == seq<nat>(n, k requires 0 <= k < n => CountIn(days, first + k));
    SumIsWindowTotal(days, first, n);
    WindowCoversAll(days, first, n);
  }

  /** `int(x)` on a float: truncation toward zero. */
  function Trunc(x: real): (t: int)
    ensures 0.0 <= x ==> t as real <= x < t as real + 1.0
    ensures x < 0.0 ==> t as real - 1.0 < x <= t as real
  {
    if x >= 0.0 then x.Floor else -((-x).Floor)
  }

  /** Point forecast and two-sided interval of one future step. */
  datatype Band = Band(mean: real, lower: real, upper: real)

  /** Fits the seasonal model to a weekly series; on success gives the band of each step ahead. */
  type Fitter = seq<nat> -> Option<nat -> Band>

  datatype ObservedWeek = ObservedWeek(weekEnd: int, bookings: nat)
  datatype ForecastWeek = ForecastWeek(weekEnd: int, bookings: int)
  datatype IntervalWeek = IntervalWeek(weekEnd: int, lower: real, upper: real)

  datatype ForecastReport = ForecastReport(
    observed: seq<ObservedWeek>,
    forecast: seq<ForecastWeek>,
    intervals: seq<IntervalWeek>,
    currentTrend: real)

  datatype ForecastError = NoHistory | FitFailed

  const Horizon: nat := 12
  const ObservedWindow: nat := 20

  /** The last `min(20, n)` weekly counts, in time order, labelled by their week's Sunday;
      the series starts in week `first`. */
  function ObservedTail(counts: seq<nat>, first: int): (obs: seq<ObservedWeek>)
    requires |counts| > 0
    ensures |obs| == if |counts| < ObservedWindow then |counts| else ObservedWindow
    ensures forall k :: 0 <= k < |obs| ==> obs[k].bookings == counts[|counts| - |obs| + k]
    ensures forall k :: 0 <= k < |obs| ==> obs[k].weekEnd == WeekEnd(first + |counts| - |obs| + k)
    ensures obs[|obs| - 1].weekEnd == WeekEnd(first + |counts| - 1)
    ensures obs[|obs| - 1].bookings == counts[|counts| - 1]
  {
    var n := |counts|;
    var shown := if n < ObservedWindow then n else ObservedWindow;
    var obs := seq(shown, k requires 0 <= k < shown => ObservedWeek(WeekEnd(first + n - shown + k), counts[n - shown + k]));
    obs
  }

  /** The twelve forecast weeks following week `last`, and one interval per forecast week,
      labelled by the same Sunday. */
  function ForecastWeeks(last: int, bands: nat -> Band): (fw: (seq<ForecastWeek>, seq<IntervalWeek>))
    ensures |fw.0| == Horizon && |fw.1| == Horizon
    ensures forall k :: 0 <= k < Horizon ==> fw.0[k].weekEnd == fw.1[k].weekEnd == WeekEnd(last) + 7 * (k + 1)
    ensures forall k :: 0 <= k < Horizon ==>
      && fw.0[k].bookings == Trunc(bands(k).mean)
      && fw.1[k].lower == bands(k).lower && fw.1[k].upper == bands(k).upper
  {
    var points := seq(Horizon, k requires 0 <= k < Horizon => ForecastWeek(WeekEnd(last + 1 + k), Trunc(bands(k).mean)));
    var bounds := seq(Horizon, k requires 0 <= k < Horizon => IntervalWeek(WeekEnd(last + 1 + k), bands(k).lower, bands(k).upper));
    assert forall k :: 0 <= k < Horizon ==> points[k].weekEnd == WeekEnd(last + 1 + k) == WeekEnd(last) + 7 * (k + 1);
    (points, bounds)
  }

  /** `get_forecast`, from the arrival days of the cleaned table: no arrivals or a failed
      fit is an error; otherwise the observed tail, the twelve forecast weeks that follow the
      last observed week, and the latest weekly count as the current trend. */
  function Forecast(arrivals: seq<int>, fit: Fitter): (r: Result<ForecastReport, ForecastError>)
    ensures r.Ok? <==> |arrivals| > 0 && fit(Weekly(arrivals)).Some?
    ensures r.Ok? ==>
      var counts := Weekly(arrivals);
      var rep := r.value;
      && rep.observed == ObservedTail(counts, FirstWeek(arrivals))
      && (rep.forecast, rep.intervals) == ForecastWeeks(LastWeek(arrivals), fit(counts).value)
      && rep.observed[|rep.observed| - 1].weekEnd == WeekEnd(LastWeek(arrivals))
      && rep.currentTrend == counts[|counts| - 1] as real
      && rep.currentTrend == rep.observed[|rep.observed| - 1].bookings as real
  {
    if |arrivals| == 0 then Err(NoHistory)
    else
      var counts := Weekly(arrivals);
      match fit(counts)
      case None => Err(FitFailed)
      case Some(bands) =>
        var fw := ForecastWeeks(LastWeek(arrivals), bands);
        Ok(ForecastReport(ObservedTail(counts, FirstWeek(arrivals)), fw.0, fw.1, counts[|counts| - 1] as real))
  }
}

=== FILE: inference.dfy ===
/** The decision rule applied to the classifier's probability (backend/main.py). */
module Inference {

  datatype Verdict = Canceled | NotCanceled

  /** The label the API returns and the ledger stores. */
  function Label(v: Verdict): (s: string)
    ensures s == "Canceled" || s == "Not_Canceled"
  {
    match v
    case Canceled => "Canceled"
    case NotCanceled => "Not_Canceled"
  }

  const Threshold: real := 0.5

  /** Strictly above the threshold is a cancellation; the threshold itself is not. */
  function VerdictOf(p: real): (v: Verdict)
    ensures Label(v) == "Canceled" <==> p > Threshold
    ensures Label(v) == "Not_Canceled" <==> p <= Threshold
  {
    if p > Threshold then Canceled else NotCanceled
  }

  /** Raising the probability never turns a cancellation into a non-cancellation. */
  lemma VerdictMonotone(p: real, q: real)
    requires p <= q && VerdictOf(p) == Canceled
    ensures VerdictOf(q) == Canceled
  {
  }

  /** The boundary: exactly one half is not a cancellation, anything above it is. */
  lemma ThresholdBoundary()
    ensures VerdictOf(0.5) == NotCanceled
    ensures VerdictOf(0.5000001) == Canceled
  {
  }
}

=== FILE: label_encoding.dfy ===
/** scikit-learn's LabelEncoder on string columns: `fit` learns the sorted distinct labels
    (`classes_`), `transform` maps a label to its position among them. */
module LabelEncoding {
  import opened Text

  predicate Distinct(xs: seq<string>) {
    forall i, j :: 0 <= i < j < |xs| ==> xs[i] != xs[j]
  }

  /** A class list never holds the same label twice. */
  type Classes = xs: seq<string> | Distinct(xs) witness []

  predicate StrictlySorted(xs: seq<string>) {
    forall i, j :: 0 <= i < j < |xs| ==> Less(xs[i], xs[j])
  }

  lemma SortedIsDistinct(xs: seq<string>)
    requires StrictlySorted(xs)
    ensures Distinct(xs)
  {
    forall i, j | 0 <= i < j < |xs|
      ensures xs[i] != xs[j]
    {
      LessIrreflexive(xs[i]);
    }
  }

  /** A label below the head of a sorted list is below all of it. */
  lemma BelowHead(xs: seq<string>, s: string)
    requires StrictlySorted(xs) && |xs| > 0 && Less(s, xs[0])
    ensures StrictlySorted([s] + xs)
  {
    forall j | 0 < j < |xs|
      ensures Less(s, xs[j])
    {
      LessTransitive(s, xs[0], xs[j]);
    }
  }

  /** Adds `s` to a strictly sorted list, keeping it strictly sorted and duplicate-free. */
  function Insert(xs: seq<string>, s: string): (r: seq<string>)
    requires StrictlySorted(xs)
    ensures StrictlySorted(r)
    ensures forall x :: x in r <==> x in xs || x == s
  {
    if |xs| == 0 then [s]
    else if s == xs[0] then xs
    else if Less(s, xs[0]) then
      BelowHead(xs, s);
      [s] + xs
    else
      LessTotal(s, xs[0]);
      var rest := Insert(xs[1..], s);
      AboveHead(xs, s, rest);
      [xs[0]] + rest
  }

  /** When the head of `xs` is below `s`, it is below every element of `Insert(xs[1..], s)`. */
  lemma AboveHead(xs: seq<string>, s: string, rest: seq<string>)
    requires StrictlySorted(xs) && |xs| > 0 && Less(xs[0], s)
    requires StrictlySorted(rest)
    requires forall x :: x in rest <==> x in xs[1..] || x == s
    ensures StrictlySorted([xs[0]] + rest)
  {
    forall j | 0 <= j < |rest|
      ensures Less(xs[0], rest[j])
    {
      assert rest[j] in rest;
      if rest[j] != s {
        var k :| 0 <= k < |xs[1..]| && xs[1..][k] == rest[j];
        assert xs[k + 1] == rest[j];
      }
    }
  }

  /** `LabelEncoder.fit`: the distinct labels of a column in sorted order (`np.unique`). */
  function Fit(labels: seq<string>): (cs: Classes)
    ensures StrictlySorted(cs)
    ensures forall x :: x in cs <==> x in labels
  {
    if |labels| == 0 then []
    else
      var r := Insert(Fit(labels[1..]), labels[0]);
      SortedIsDistinct(r);
      assert forall x :: x in labels <==> x == labels[0] || x in labels[1..] by {
        assert labels == [labels[0]] + labels[1..];
      }
      r
  }

  /** Position of a label in a class list. */
  function IndexOf(cs: seq<string>, s: string): (k: nat)
    requires s in cs
    ensures k < |cs| && cs[k] == s
    ensures s !in cs[..k]
  {
    if cs[0] == s then 0
    else
      assert s in cs[1..] by {
        var j :| 0 <= j < |cs| && cs[j] == s;
        assert cs[1..][j - 1] == s;
      }
      var k := 1 + IndexOf(cs[1..], s);
      assert cs[..k] == [cs[0]] + cs[1..][..k - 1];
      k
  }

  /** In a duplicate-free class list a label's position is unique, so `IndexOf` inverts indexing. */
  lemma IndexOfPosition(cs: Classes, k: nat)
    requires k < |cs|
    ensures IndexOf(cs, cs[k]) == k
  {
  }

  /** `LabelEncoder.transform` on labels it was fitted on: `inverse_transform` recovers every label. */
  function Transform(cs: Classes, labels: seq<string>): (codes: seq<nat>)
    requires forall k :: 0 <= k < |labels| ==> labels[k] in cs
    ensures |codes| == |labels|
    ensures forall k :: 0 <= k < |labels| ==> codes[k] < |cs| && cs[codes[k]] == labels[k]
  {
    seq(|labels|, k requires 0 <= k < |labels| => IndexOf(cs, labels[k]))
  }

  /** `fit_transform` of a column: every cell receives a valid code for the fitted classes,
      and that code decodes back to the cell's label. */
  lemma FitTransformRoundTrip(labels: seq<string>)
    ensures var cs := Fit(labels);
      var codes := Transform(cs, labels);
      forall k :: 0 <= k < |labels| ==> codes[k] < |cs| && cs[codes[k]] == labels[k]
  {
  }
}

=== FILE: ledger.dfy ===
/** The prediction history table (`predictions` in history.db): an append-only sequence of
    events with auto-incremented ids, read back newest first. */
module Ledger {
  import opened Records
  import opened Inference

  /** One row of the table; the payload is the request record, stored verbatim. */
  datatype Event = Event(id: nat, timestamp: string, payload: Record, probability: real, prediction: Verdict)

  /** One item of the `/history` response (the id is not selected). */
  datatype HistoryItem = HistoryItem(timestamp: string, payload: Record, probability: real, prediction: string)

  datatype HistoryResponse = HistoryResponse(items: seq<HistoryItem>, count: nat)

  type Log = seq<Event>

  /** Ids are positive and strictly increase in insertion order. */
  predicate ValidLog(l: Log) {
    && (forall i :: 0 <= i < |l| ==> l[i].id >= 1)
    && (forall i, j :: 0 <= i < j < |l| ==> l[i].id < l[j].id)
  }

  /** AUTOINCREMENT: one more than the largest id handed out so far. */
  function NextId(l: Log): (id: nat)
    requires ValidLog(l)
    ensures id >= 1
    ensures forall i :: 0 <= i < |l| ==> l[i].id < id
  {
    if |l| == 0 then 1 else l[|l| - 1].id + 1
  }

  /** The INSERT of one event: earlier events are unchanged and the new one gets a fresh,
      larger id. */
  function Append(l: Log, timestamp: string, payload: Record, probability: real, prediction: Verdict): (l': Log)
    requires ValidLog(l)
    ensures ValidLog(l')
    ensures |l'| == |l| + 1 && l'[..|l|] == l
    ensures var e := l'[|l|];
      && e.timestamp == timestamp && e.payload == payload
      && e.probability == probability && e.prediction == prediction
      && forall i :: 0 <= i < |l| ==> l[i].id < e.id
  {
    l + [Event(NextId(l), timestamp, payload, probability, prediction)]
  }

  /** `SELECT ... ORDER BY id DESC LIMIT limit`. */
  function Newest(l: Log, limit: nat): (sel: seq<Event>)
    ensures |sel| == if limit < |l| then limit else |l|
    ensures forall k :: 0 <= k < |sel| ==> sel[k] in l
  {
    var n := if limit < |l| then limit else |l|;
    seq(n, k requires 0 <= k < n => l[|l| - 1 - k])
  }

  /** On a valid log the selection is exactly the `limit` events with the largest ids, in
      strictly descending id order: every event left out is older than every event selected. */
  lemma NewestAreLargestIds(l: Log, limit: nat)
    requires ValidLog(l)
    ensures var sel := Newest(l, limit);
      && (forall j, k :: 0 <= j < k < |sel| ==> sel[j].id > sel[k].id)
      && (forall i :: |l| - |sel| <= i < |l| ==> l[i] in sel)
      && (forall i, k :: 0 <= i < |l| - |sel| && 0 <= k < |sel| ==> l[i].id < sel[k].id)
  {
    var sel := Newest(l, limit);
    forall i | |l| - |sel| <= i < |l|
      ensures l[i] in sel
    {
      assert sel[|l| - 1 - i] == l[i];
    }
  }

  /** An event as a response item: the stored fields, the verdict as its label. */
  function Item(e: Event): HistoryItem {
    HistoryItem(e.timestamp, e.payload, e.probability, Label(e.prediction))
  }

  /** `/history`: the selected rows as response items, with `count` their number. */
  function History(l: Log, limit: nat): (h: HistoryResponse)
    ensures h.count == |h.items| == if limit < |l| then limit else |l|
    ensures forall k :: 0 <= k < |h.items| ==>
      var e := l[|l| - 1 - k];
      h.items[k] == HistoryItem(e.timestamp, e.payload, e.probability, Label(e.prediction))
  {
    var sel := Newest(l, limit);
    var items := seq(|sel|, k requires 0 <= k < |sel| => Item(sel[k]));
    HistoryResponse(items, |items|)
  }

  /** The limit used when the request gives none. */
  const DefaultHistoryLimit: nat := 50

  /** Without a limit, `/history` returns the 50 newest events, or all of them when fewer
      are stored, newest first. */
  lemma DefaultHistory(l: Log)
    ensures var h := History(l, DefaultHistoryLimit);
      && h.count == |h.items| == (if |l| < 50 then |l| else 50)
      && (|l| > 0 ==> h.items[0] == Item(l[|l| - 1]))
  {
  }

  /** Example: after A, B and C are appended to an empty table, a limit of 2 returns C then B. */
  lemma HistoryExample(a: Record, b: Record, c: Record)
    ensures var l := Append(Append(Append([], "t1", a, 0.1, NotCanceled), "t2", b, 0.7, Canceled), "t3", c, 0.3, NotCanceled);
      History(l, 2).items == [HistoryItem("t3", c, 0.3, "Not_Canceled"), HistoryItem("t2", b, 0.7, "Canceled")]
  {
    var l := Append(Append(Append([], "t1", a, 0.1, NotCanceled), "t2", b, 0.7, Canceled), "t3", c, 0.3, NotCanceled);
    assert l[2].payload == c && l[1].payload == b;
  }
}

=== FILE: records.dfy ===
/** Open records of scalar cells, the shape of a request body, a CSV row or a DataFrame row. */
module Records {
  import opened Calendar

  /** One scalar cell: an integer, a float, a string or a parsed date. */
  datatype Value = IntVal(n: int) | RealVal(x: real) | StrVal(text: string) | DateVal(date: Date)

  /** A mapping from field name to cell. */
  type Record = map<string, Value>

  /** A table as read from a CSV file: its header and its rows. */
  datatype Table = Table(header: seq<string>, rows: seq<Record>)

  predicate IsNumber(v: Value) {
    v.IntVal? || v.RealVal?
  }

  /** The float a numeric cell converts to. */
  function AsReal(v: Value): real
    requires IsNumber(v)
  {
    if v.IntVal? then v.n as real else v.x
  }

  /** `dict.get(key, default)`. */
  function Get(r: Record, key: string, default: Value): (v: Value)
    ensures key in r ==> v == r[key]
    ensures key !in r ==> v == default
  {
    if key in r then r[key] else default
  }
}

=== FILE: results.dfy ===
/** Success/failure values, used wherever the repository raises an exception. */
module Results {

  /** A value that may be absent. */
  datatype Option<+T> = None | Some(value: T)

  /** The outcome of an operation that can fail; usable with `:-`. */
  datatype Result<+T, +E> = Ok(value: T) | Err(error: E) {

    predicate IsFailure() {
      Err?
    }

    function PropagateFailure<U>(): Result<U, E>
      requires Err?
    {
      Err(error)
    }

    function Extract(): T
      requires Ok?
    {
      value
    }
  }
}

=== FILE: serving.dfy ===
/** The `/predict` and `/batch-predict` endpoints (backend/main.py): scoring, the verdict,
    the ledger write that must succeed before a single prediction is returned, and batch
    validation. HTTP status codes are not modelled; every failure is an `Err`. */
module Serving {
  import opened Results
  import opened Records
  import opened Text
  import opened Features
  import opened Inference
  import opened Ledger

  /** The `/predict` response body. */
  datatype Prediction = Prediction(probability: real, riskScore: real, verdict: Verdict)

  datatype ServeError = PreprocessingFailed | StorageFailed

  /** What a `/predict` request returns, together with the ledger it leaves behind. */
  datatype Served = Served(outcome: Result<Prediction, ServeError>, log: Log)

  /** `predict_cancellation`: score the record, then append one event; `now` is the clock
      reading and `stored` says whether the database write and commit succeed. */
  function PredictCancellation(a: Assets, model: Classifier, l: Log, input: Record, now: string, stored: bool): (s: Served)
    requires ValidLog(l)
    ensures ValidLog(s.log)
    ensures s.outcome.Ok? <==> Predict(a, model, input).Ok? && stored
    ensures s.outcome.Err? ==> s.log == l
    ensures s.outcome.Ok? ==>
      var p := s.outcome.value;
      && p.probability == Predict(a, model, input).value
      && p.riskScore == p.probability * 100.0
      && (p.verdict == Canceled <==> p.probability > Threshold)
      && |s.log| == |l| + 1 && s.log[..|l|] == l
      && s.log[|l|].payload == input && s.log[|l|].timestamp == now
      && s.log[|l|].probability == p.probability && s.log[|l|].prediction == p.verdict
      && forall i :: 0 <= i < |l| ==> l[i].id < s.log[|l|].id
  {
    match Predict(a, model, input)
    case Err(_) => Served(Err(PreprocessingFailed), l)
    case Ok(prob) =>
      var result := Prediction(prob, prob * 100.0, VerdictOf(prob));
      if !stored then Served(Err(StorageFailed), l)
      else Served(Ok(result), Append(l, now, input, prob, result.verdict))
  }

  /** One row of the `/batch-predict` response. */
  datatype BatchItem = BatchItem(bookingId: Value, probability: real, prediction: Verdict)

  datatype BatchResponse = BatchResponse(results: seq<BatchItem>, count: nat)

  datatype BatchError = NotCsv | MissingRequiredColumns | RowFailed

  /** The columns an upload must have before any row is scored. */
  const RequiredBatchColumns: seq<string> := ["lead_time", "avg_price_per_room"]

  /** The id reported for a row: its `Booking_ID`, or "Unknown". */
  function BookingId(row: Record): Value {
    Get(row, "Booking_ID", StrVal("Unknown"))
  }

  /** Scores the rows in order; the first row that fails aborts the whole batch. */
  function ScoreRows(a: Assets, model: Classifier, rows: seq<Record>): (r: Result<seq<BatchItem>, PreprocessError>)
    ensures r.Ok? <==> forall i :: 0 <= i < |rows| ==> Predict(a, model, rows[i]).Ok?
    ensures r.Ok? ==> |r.value| == |rows|
    ensures r.Ok? ==> forall i :: 0 <= i < |rows| ==>
      && Predict(a, model, rows[i]).Ok?
      && r.value[i].bookingId == BookingId(rows[i])
      && r.value[i].probability == Predict(a, model, rows[i]).value
      && (r.value[i].prediction == Canceled <==> r.value[i].probability > Threshold)
    decreases |rows|
  {
    if |rows| == 0 then Ok([])
    else
      var prob :- Predict(a, model, rows[0]);
      var rest :- ScoreRows(a, model, rows[1..]);
      Ok([BatchItem(BookingId(rows[0]), prob, VerdictOf(prob))] + rest)
  }

  predicate HasRequiredColumns(header: seq<string>) {
    forall c :: c in RequiredBatchColumns ==> c in header
  }

  /** `batch_predict`: the file type check, then the required-column check, then the rows.
      The function has no ledger to write: a batch never records history. */
  function BatchPredict(a: Assets, model: Classifier, filename: string, t: Table): (r: Result<BatchResponse, BatchError>)
    ensures r == Err(NotCsv) <==> !EndsWith(filename, ".csv")
    ensures r == Err(MissingRequiredColumns) <==> EndsWith(filename, ".csv") && !HasRequiredColumns(t.header)
    ensures r.Ok? <==>
      && EndsWith(filename, ".csv")
      && HasRequiredColumns(t.header)
      && forall i :: 0 <= i < |t.rows| ==> Predict(a, model, t.rows[i]).Ok?
    ensures r.Ok? ==> r.value.count == |r.value.results| == |t.rows|
    ensures r.Ok? ==> forall i :: 0 <= i < |t.rows| ==>
      && r.value.results[i].bookingId == BookingId(t.rows[i])
      && Predict(a, model, t.rows[i]).Ok?
      && r.value.results[i].probability == Predict(a, model, t.rows[i]).value
      && (r.value.results[i].prediction == Canceled <==> r.value.results[i].probability > Threshold)
  {
    if !EndsWith(filename, ".csv") then Err(NotCsv)
    else if !HasRequiredColumns(t.header) then Err(MissingRequiredColumns)
    else
      match ScoreRows(a, model, t.rows)
      case Err(_) => Err(RowFailed)
      case Ok(items) => Ok(BatchResponse(items, |items|))
  }

  /** A missing required column rejects the upload whatever its rows hold, so no row is scored. */
  lemma MissingColumnRejectsBeforeRows(a: Assets, model: Classifier, filename: string, t: Table, rows: seq<Record>)
    requires EndsWith(filename, ".csv") && !HasRequiredColumns(t.header)
    ensures BatchPredict(a, model, filename, t) == BatchPredict(a, model, filename, Table(t.header, rows))
    ensures BatchPredict(a, model, filename, t) == Err(MissingRequiredColumns)
  {
  }

  /** Batch row `i` gets the probability and verdict that `/predict` would return for that row
      alone, whatever the ledger holds and whatever the clock reads. */
  lemma BatchAgreesWithSingle(a: Assets, model: Classifier, filename: string, t: Table, l: Log, now: string, i: nat)
    requires ValidLog(l)
    requires BatchPredict(a, model, filename, t).Ok? && i < |t.rows|
    ensures var single := PredictCancellation(a, model, l, t.rows[i], now, true).outcome;
      var item := BatchPredict(a, model, filename, t).value.results[i];
      && single.Ok?
      && single.value.probability == item.probability
      && single.value.verdict == item.prediction
  {
    var items := ScoreRows(a, model, t.rows).value;
    assert items[i].prediction == VerdictOf(items[i].probability);
  }

  /** The HTTP status a rejected upload gets as the handler is written. The missing-column
      `HTTPException(400)` is raised inside the `try` block, whose `except Exception` clause
      catches it (an `HTTPException` is an `Exception`) and re-raises it as a 500. */
  function BatchStatusAsWritten(e: BatchError): (code: nat)
    ensures code == 400 <==> e == NotCsv
    ensures code == 400 || code == 500
  {
    match e
    case NotCsv => 400
    case MissingRequiredColumns => 500
    case RowFailed => 500
  }

  /** The status the handler evidently means to send: a malformed upload (wrong file type or
      missing columns) is the client's error, a failing row is the server's. */
  function BatchStatus(e: BatchError): (code: nat)
    ensures code == 400 <==> e == NotCsv || e == MissingRequiredColumns
    ensures code == 500 <==> e == RowFailed
  {
    match e
    case NotCsv => 400
    case MissingRequiredColumns => 400
    case RowFailed => 500
  }

  /** An upload without the required columns shows the discrepancy: it is answered 500,
      not the 400 the handler raises for it. */
  lemma MissingColumnsAnswered500(a: Assets, model: Classifier, t: Table)
    requires !HasRequiredColumns(t.header)
    ensures BatchPredict(a, model, "bookings.csv", t) == Err(MissingRequiredColumns)
    ensures BatchStatusAsWritten(BatchPredict(a, model, "bookings.csv", t).error) == 500
    ensures BatchStatus(BatchPredict(a, model, "bookings.csv", t).error) == 400
  {
    assert EndsWith("bookings.csv", ".csv");
  }
}

=== FILE: text.dfy ===
/** Operations on strings used by the serving code and the label encoder. */
module Text {

  /** Lexicographic order by code point, the order Python and numpy sort strings in. */
  predicate Less(a: string, b: string)
    decreases |a|
  {
    |b| > 0 && (|a| == 0 || a[0] < b[0] || (a[0] == b[0] && Less(a[1..], b[1..])))
  }

  lemma {:induction false} LessIrreflexive(a: string)
    ensures !Less(a, a)
    decreases |a|
  {
    if |a| > 0 {
      LessIrreflexive(a[1..]);
    }
  }

  lemma {:induction false} LessTransitive(a: string, b: string, c: string)
    requires Less(a, b) && Less(b, c)
    ensures Less(a, c)
    decreases |a|
  {
    if |a| > 0 && a[0] == b[0] && b[0] == c[0] {
      LessTransitive(a[1..], b[1..], c[1..]);
    }
  }

  lemma {:induction false} LessTotal(a: string, b: string)
    ensures a == b || Less(a, b) || Less(b, a)
    decreases |a|
  {
    if |a| > 0 && |b| > 0 && a[0] == b[0] {
      LessTotal(a[1..], b[1..]);
      if a[1..] == b[1..] {
        assert a == [a[0]] + a[1..];
        assert b == [b[0]] + b[1..];
      }
    }
  }

  /** `s.endswith(suffix)`, case-sensitive. */
  predicate EndsWith(s: string, suffix: string)
    ensures EndsWith(s, suffix) <==>
      |suffix| <= |s| && forall k :: 0 <= k < |suffix| ==> s[|s| - |suffix| + k] == suffix[k]
  {
    |suffix| <= |s| && s[|s| - |suffix|..] == suffix
  }

  /** A string ends with `suffix` exactly when it is some prefix followed by `suffix`. */
  lemma EndsWithIsAppended(s: string, suffix: string)
    ensures EndsWith(s, suffix) <==> |suffix| <= |s| && s == s[..|s| - |suffix|] + suffix
  {
    if |suffix| <= |s| {
      assert s == s[..|s| - |suffix|] + s[|s| - |suffix|..];
    }
  }

  /** The check is case-sensitive and needs the dot: "bookings.CSV" and "csv" are rejected. */
  lemma EndsWithExamples()
    ensures EndsWith("bookings.csv", ".csv") && EndsWith(".csv", ".csv")
    ensures !EndsWith("bookings.CSV", ".csv") && !EndsWith("csv", ".csv")
  {
    assert "bookings.CSV"[9] != ".csv"[1];
  }
}
